=== FILE: README.md ===
# Live Market Dashboard: a Dafny model of the data functions

The dashboard's serverless functions resolve market indicators from
unreliable upstreams: the FRED economic-data API, TwelveData, Financial
Modeling Prep (FMP), the CBOE and Stooq CSV downloads, and the site's own
functions. This project models the logic those functions apply to the
answers. Every upstream answer is an input value, a `Common.Outcome` that is
either the parsed payload or the error message of a failed request. Each
API key is a boolean saying whether it is set. The clock is an integer
parameter `now` in milliseconds.

Modules, one per function file plus three shared ones:

- `Common`: the optional and outcome types, the raw JSON field values FRED
  and the quote APIs send (`"."`, `null`, absent, or text with what it parses
  to), JavaScript numbers with infinities and NaN, and the percentage helpers.
- `Fallback`: the ordered chain both fallback handlers run. The attempts go
  in order, the first success wins and every earlier failure leaves one
  message in the diagnostic trail.
- `Fred`: reading FRED observation lists. It drops the `"."` marker and
  other non-numbers, takes the first valid value of a newest-first list, and
  picks the latest/prior pair in either sort order.
- `Vix` (`vixIndex.js`): four sources (FRED, FMP, CBOE, Stooq). The
  module-level last-good record is a class `Cache` with a 6-hour freshness
  bound.
- `Gold` (`gold.js`): London PM fix, AM fix, TwelveData spot, FMP futures.
  Status is 200 even when all four fail.
- `Buffett` (`buffett.js`): quarterly market value averaged per year, annual
  GDP per year, the latest year both cover, and their ratio.
- `EstimatedBuffett` (`estimatedBuffett.js`): fifteen constituents summed,
  cached for 30 minutes in the class `ConstituentCache`, an SPY-based
  fallback, a 1.30 multiplier and the 120% flag.
- `FetchAllData` (`fetchAllData.js`): nine keys filled in order, the
  TwelveData-to-FMP "credits" rule, and per-key error entries.
- `YieldSpread` (`yieldSpread.js`): the ten-year minus two-year spread and
  the inversion flag.
- `Buffet` (`netlify/functions/netlify/functions/buffet.js`): the latest
  Wilshire 5000 value over the latest GDP.

Where the code changes state, the model is imperative:

- The handler loops and the first-valid scan are `while`/`for` loops.
- The map-building passes of `buffett.js` are loops over Dafny `map`s.
- The two module-level caches are classes whose methods `modify` them.

Each method is proved against a specification function, and the properties
are lemmas about those functions.

Two modelling decisions that follow the code:

- The diagnostic trail records failures only; a success adds no entry
  (`gold.js:84-86`, `vixIndex.js:126-128`). `Fallback.Trail` holds the
  failures before the first success.
- A per-key error of the fan-out handler carries one message: TwelveData's,
  or FMP's when FMP was asked (`fetchAllData.js:67-72`).

## Model

| member | source | states |
|---|---|---|
| Common.ParseFloat | netlify/functions/estimatedBuffett.js:36-37 | `parseFloat` yields a number exactly for numeric text; ".", null and undefined never parse |
| Common.NumberOf | netlify/functions/gold.js:45-46 | `Number(v)` is finite exactly for null (as 0) and numeric text, and is never infinite |
| Common.Percent | netlify/functions/buffett.js:72 | `(a / b) * 100` satisfies `r * b == a * 100` for a non-zero finite base; with a zero base it is NaN exactly when `a` is 0; NaN propagates |
| Common.PercentScaleFree | netlify/functions/buffett.js:72 | multiplying both operands by the same positive factor leaves the percentage unchanged |
| Common.PercentExceeds | netlify/functions/netlify/functions/buffet.js:29-31 | over a positive base, the percentage exceeds `t` iff `a * 100 > t * base` |
| Common.PercentOfZero | netlify/functions/netlify/functions/buffet.js:29-31 | over a zero base, the percentage exceeds any threshold iff `a > 0` (+Infinity), never for 0 (NaN) or negative `a` |
| Common.PctChange | netlify/functions/fetchAllData.js:58 | the change times the prior equals `(latest - prior) * 100` |
| Common.PctChangeSign | netlify/functions/vixIndex.js:40 | with a positive prior, the change is positive iff the value rose and zero iff it is unchanged |
| Common.LowerAscii | netlify/functions/fetchAllData.js:67 | the `i` flag's case folding: same length, each ASCII capital lowered, every other character kept |
| Common.CreditsAt | netlify/functions/fetchAllData.js:67 | a match of "credits" in any case at position `i` lies inside the string and starts with "c" or "C" |
| Common.MentionsCredits | netlify/functions/fetchAllData.js:67 | `/credits/i` matches only strings of at least 7 characters, with a "c" or "C" where the match starts |
| Fallback.FirstOk | netlify/functions/gold.js:76-83 | the index of the first success, with only failures before it; None iff every outcome failed |
| Fallback.Attempts | netlify/functions/gold.js:76-83 | the number of attempts made never exceeds the number of sources |
| Fallback.Trail | netlify/functions/gold.js:84-86 | the trail holds exactly the failures before the first success, each failure's message at its own position |
| Fallback.Winner | netlify/functions/gold.js:78-83 | a value is returned iff some source succeeds, and it is the first success's value |
| Fallback.TryInOrder | netlify/functions/gold.js:75-87 | the loop returns the winner, the trail and the attempt count of the chain; on success the trail has one entry fewer than the attempts, on exhaustion one per source |
| Fallback.TrailExtend | netlify/functions/gold.js:84-86 | each failed attempt appends exactly its own message to the trail |
| Fallback.TrailPrefix | netlify/functions/vixIndex.js:111-125 | a success at attempt `i` after failures only ends the chain: `i + 1` attempts, its value wins, the trail so far is the whole trail |
| Fallback.LaterSourcesIrrelevant | netlify/functions/vixIndex.js:111-125 | what sources after the winner would answer changes neither the winner nor the trail |
| Fallback.ExhaustedTrailIsComplete | netlify/functions/vixIndex.js:126-128 | when every source fails, all are attempted and the trail lists every message in attempt order |
| Fred.Clean | netlify/functions/gold.js:20-22 | the filtered list is empty iff no observation is numeric, and is never longer than the input |
| Fred.FirstValid | netlify/functions/estimatedBuffett.js:33-38 | None iff no observation is numeric; otherwise the value of a numeric observation with only non-numeric ones before it |
| Fred.Latest | netlify/functions/estimatedBuffett.js:31-39 | a missing or empty list fails with "No data for <id>"; a list without a valid entry fails with "No valid observation for <id>"; otherwise the first value of the filtered list |
| Fred.LatestValid | netlify/functions/estimatedBuffett.js:26-40 | the scan with `continue` and early return computes `Fred.Latest` |
| Fred.FirstValidIsFirstClean | netlify/functions/yieldSpread.js:10-16 | the first-valid scan picks the head of the filtered list |
| Fred.CleanAppend | netlify/functions/fetchAllData.js:47-49 | filtering a concatenation filters each part |
| Fred.CleanReverse | netlify/functions/gold.js:20-22 | filtering commutes with reversing the sort order |
| Fred.MakePair | netlify/functions/fetchAllData.js:55-59 | the change is null unless a prior exists and is non-zero; otherwise the change times the prior is `(price - prior) * 100` |
| Fred.NewestFirstPair | netlify/functions/fetchAllData.js:52-59 | newest-first: the price is element 0, and a change exists iff element 1 exists and is non-zero |
| Fred.ChronologicalPair | netlify/functions/gold.js:25-32 | chronological: the price is the last element, and a change exists iff the second-to-last exists and is non-zero |
| Fred.OrderingsAgree | netlify/functions/fetchAllData.js:52-53 | reading a list newest-first and reading its reverse chronologically give the same price and change |
| Vix.NotDot | netlify/functions/vixIndex.js:31-33 | only "." entries are dropped: the result is as long as the input minus its "." entries, and is empty iff every entry is "." |
| Vix.NotDotFirst | netlify/functions/vixIndex.js:31-36 | the first value kept is `Number` of the first non-"." observation, so a null there reads as 0 |
| Vix.Change | netlify/functions/vixIndex.js:40 | on finite values with a non-zero prior it is the percentage change; NaN in either gives NaN |
| Vix.FromFred | netlify/functions/vixIndex.js:22-44 | a missing key fails first and a failed request passes its error; a non-array payload fails with "FRED: bad payload" and one with only "." values with "FRED: no numeric values"; otherwise the price is the first non-"." value as `Number`, and a change exists iff a second exists and is not 0, and is then `((latest - prev) / prev) * 100`; source "FRED VIXCLS (daily close)" |
| Vix.FredNullReadsAsZero | netlify/functions/vixIndex.js:31-37 | a null newest observation gives price 0 even when a numeric value follows it |
| Vix.AsNumbers | netlify/functions/vixIndex.js:33 | the readings become the same finite numbers in the same order |
| Vix.FredAgreesWithClean | netlify/functions/vixIndex.js:31-35 | on a payload of numbers and "." only, the VIX FRED filter reads what the other handlers' filter reads |
| Vix.FredQuoteOnWellFormed | netlify/functions/vixIndex.js:37-41 | on such a payload the price is the newest value, and the change is null unless a non-zero prior exists, else the percentage change |
| Vix.FromFmp | netlify/functions/vixIndex.js:46-57 | a missing key fails first and a failed request passes its error; no first row fails with "FMP: no rows" and a NaN price with "FMP: bad price"; a quote exists iff the key is set, a row exists and `Number(price)` is not NaN; its price is `Number(price)`, its change is `Number(changesPercentage)` exactly when that field is numeric and null otherwise; source "FMP ^VIX (intraday)" |
| Vix.LastCloseIndex | netlify/functions/vixIndex.js:73-75 | the last line in `[1, hi)` with a numeric close and none after it; None iff no such line; line 0 is never chosen |
| Vix.CboeQuote | netlify/functions/vixIndex.js:59-82 | a failed request passes its error; fewer than 2 lines fails with "CBOE: no data rows"; no numeric close after the header fails with "CBOE: no usable close"; otherwise a quote exists, its price is the last numeric close; the previous close is the last numeric line above it (never the header), and a change exists iff that previous close exists and is not 0, and is then the percentage change between the two; source "CBOE CSV (daily close)" |
| Vix.LastCloseIgnoresHeader | netlify/functions/vixIndex.js:73-75 | the backward scan never reads line 0 |
| Vix.CboeIgnoresHeader | netlify/functions/vixIndex.js:68-76 | replacing the header line's close by anything leaves the CBOE result unchanged |
| Vix.FromCboe | netlify/functions/vixIndex.js:73-81 | the two backward `while` loops compute `Vix.CboeQuote` |
| Vix.FromStooq | netlify/functions/vixIndex.js:84-102 | a failed request passes its error; empty text or "NO DATA" fails; fewer than 2 rows fails with "Stooq: no data rows"; with 2 or more rows a quote exists iff the last close is numeric, else "Stooq: bad close"; the price is the last close; a change exists iff there are more than 2 rows and the row above has a non-zero numeric close, and is then the percentage change; source "Stooq CSV ^VIX (daily close)" |
| Vix.Sources | netlify/functions/vixIndex.js:109 | one source per name; a success at positions 0 to 3 carries the FRED, FMP, CBOE and Stooq label respectively |
| Vix.Tried | netlify/functions/vixIndex.js:127 | one `{src, ok: false, err}` entry per failure before the first success, labelled with that source's name |
| Vix.Attempt | netlify/functions/vixIndex.js:111-113 | invoking source `i` gives that source's outcome |
| Vix.Cache.constructor | netlify/functions/vixIndex.js:8-13 | the record starts with no price, no change, empty source and timestamp 0 |
| Vix.Cache.FreshAt | netlify/functions/vixIndex.js:132 | a record served from the cache has a price and a timestamp less than 6 hours before `now` |
| Vix.Cache.Handle | netlify/functions/vixIndex.js:105-155 | the first success is returned with 200 and overwrites the whole record with timestamp `now`, leaving it fresh; after four failures the record is unchanged, and it is served only when it has a price and is under 6 hours old; otherwise 500 with all four trail entries |
| Gold.FredLatestPair | netlify/functions/gold.js:10-34 | a missing key fails first and a failed request passes its error; a non-array payload, or one without a numeric value, fails as "No observations for <id>"; a quote exists iff some value is numeric; the price is the last clean value; a change exists iff a non-zero second-to-last exists |
| Gold.TdGold | netlify/functions/gold.js:37-49 | a missing key fails first; a failed request ("TwelveData HTTP <status>") fails with its own message; an error payload fails with its message or "TwelveData error"; otherwise `Number(close)` and `Number(percent_change)` |
| Gold.FmpGold | netlify/functions/gold.js:52-64 | a missing key fails first; a failed request ("FMP HTTP <status>") fails with its own message; a payload without a first row fails as "Bad FMP data"; otherwise `Number(price)` and `Number(changesPercentage)` of that row |
| Gold.Sources | netlify/functions/gold.js:68-73 | four attempts, the London PM fix first |
| Gold.ErrorText | netlify/functions/gold.js:85 | `e.message \|\| String(e)` is never empty and is the message when there is one |
| Gold.Texts | netlify/functions/gold.js:84-86 | the trail text at each position is that failure's printed message |
| Gold.Handle | netlify/functions/gold.js:66-99 | status is always 200; a quote iff some source succeeds, and then the first success's; otherwise "All gold sources failed" with four messages in attempt order |
| Gold.PmFixDecides | netlify/functions/gold.js:68-83 | a usable PM fix answers after one attempt, labelled "FRED GOLDPMGBD228NLBM" |
| Gold.NoFredKeySkipsFixes | netlify/functions/gold.js:11 | without a FRED key both fixes fail with "FRED_KEY missing", and the answer is TwelveData's or FMP's |
| Buffett.Scaled | netlify/functions/buffett.js:27 | "." gives null; numeric text gives its value times 1e9; null gives 0; never infinite |
| Buffett.YearValues | netlify/functions/buffett.js:25-31 | the year's list is empty iff every observation of that year is "." |
| Buffett.Sum | netlify/functions/buffett.js:35 | `reduce((a, b) => a + b, 0)` is finite when every value is, and NaN when any value is |
| Buffett.Mean | netlify/functions/buffett.js:35 | with a finite sum, the ordinary quotient of the sum by the count; NaN when any value is NaN |
| Buffett.MarketCapByYear | netlify/functions/buffett.js:12-38 | a year is in the averaged map iff it has a non-"." value, and its entry is the mean of those values |
| Buffett.Averages | netlify/functions/buffett.js:33-37 | exactly the non-empty groups are averaged, keys kept |
| Buffett.MissingValueIgnored | netlify/functions/buffett.js:27-30 | a "." observation at any position of the series adds to neither the sum nor the count of any year |
| Buffett.SumBounds | netlify/functions/buffett.js:35 | a sum of `n` finite values in `[lo, hi]` is finite and lies between `lo` and `hi` added `n` times (`n*lo` and `n*hi`) |
| Buffett.MeanWithin | netlify/functions/buffett.js:34-36 | a yearly average lies between the least and the greatest of its values, so missing quarters never pull it towards 0 |
| Buffett.TwoOfFourQuarters | netlify/functions/buffett.js:25-36 | quarters 10, ".", 12, "." average to 11 (times 1e9) |
| Buffett.MeanOfTwo | netlify/functions/buffett.js:35 | the mean of two values is half their sum |
| Buffett.LastValue | netlify/functions/buffett.js:53-57 | a year has a GDP value iff some non-"." observation carries it, and the value is the last such observation's |
| Buffett.GdpByYear | netlify/functions/buffett.js:40-59 | the loop with `map.set` yields `Buffett.LastValue` for every year |
| Buffett.LaterGdpOverwrites | netlify/functions/buffett.js:56 | a later numeric observation of a year overwrites any earlier one |
| Buffett.LatestCommonYear | netlify/functions/buffett.js:66-69 | the chosen year is in both maps and is the greatest such year; None iff no year is in both |
| Buffett.Handle | netlify/functions/buffett.js:5-104 | a missing key, a failed request and no overlapping year each give 500 with their message; otherwise 200 for the greatest covered year, with the market value as that year's mean, its GDP and their percentage |
| Buffett.ScalingCancels | netlify/functions/buffett.js:72 | the 1e9 scaling of both series does not change the ratio |
| EstimatedBuffett.Contribution | netlify/functions/estimatedBuffett.js:81-84 | a profile adds its cap exactly when that is a positive number, otherwise nothing |
| EstimatedBuffett.Responses | netlify/functions/estimatedBuffett.js:73-81 | one profile answer per ticker, in list order |
| EstimatedBuffett.Total | netlify/functions/estimatedBuffett.js:71-90 | the running total is never negative, and positive as soon as one profile has a positive numeric cap |
| EstimatedBuffett.TotalZeroIffNoCap | netlify/functions/estimatedBuffett.js:92 | the total is non-negative, and zero iff no profile had a positive numeric cap |
| EstimatedBuffett.SkippedSymbolAddsNothing | netlify/functions/estimatedBuffett.js:77-79 | a failed or unusable ticker is skipped without changing the total |
| EstimatedBuffett.ConstituentCap | netlify/functions/estimatedBuffett.js:64-96 | a usable cache is returned as is; without an FMP key it fails with its message; the aggregation fails exactly when no ticker had a positive numeric `marketCap`; otherwise the (positive) total in billions |
| EstimatedBuffett.ConstituentCache.constructor | netlify/functions/estimatedBuffett.js:20-23 | the record starts with timestamp 0 and no value |
| EstimatedBuffett.ConstituentCache.Usable | netlify/functions/estimatedBuffett.js:66 | a reused record has a non-zero value and a timestamp less than 30 minutes before `now` |
| EstimatedBuffett.ConstituentCache.FetchConstituents | netlify/functions/estimatedBuffett.js:64-96 | the summing loop computes `EstimatedBuffett.ConstituentCap`; only a fresh aggregation rewrites the record (timestamp `now`); a cache hit or a failure leaves it unchanged; after a success the record is usable at `now` |
| EstimatedBuffett.SpyBasedCap | netlify/functions/estimatedBuffett.js:43-55 | a failed request passes its error; an error payload or a missing close fails with "Bad SPY data fallback: " followed by the first 200 characters of the payload's JSON text (all of it when shorter); a close that does not parse fails with "Invalid SPY price"; a quote exists iff the close parses; the cap is price × 1,024,000,000 / 1e9 = price × 1.024 |
| EstimatedBuffett.Assess | netlify/functions/estimatedBuffett.js:112-117 | a GDP error passes through and zero GDP is rejected; otherwise the estimate is cap × 1.30, ratio × GDP = estimate × 100, and overvalued iff ratio > 120 |
| EstimatedBuffett.OvervaluedMeansAboveGdp | netlify/functions/estimatedBuffett.js:117 | with positive GDP, overvalued iff cap × 1.30 > 1.2 × GDP |
| EstimatedBuffett.Cap | netlify/functions/estimatedBuffett.js:103-110 | the constituent value is used whenever it succeeds; SPY is used only when it fails; the source label names the path taken |
| EstimatedBuffett.Handle | netlify/functions/estimatedBuffett.js:98-140 | a failed cap gives 500 before GDP is read; otherwise GDP is the first valid "GDP" observation and the response is the assessment, 200 iff it succeeds; the constituent record is rewritten (timestamp `now`, the new total) only by a fresh aggregation, is otherwise unchanged, and is usable at `now` whenever the constituent path succeeded |
| FetchAllData.FetchTwelve | netlify/functions/fetchAllData.js:18-25 | an error payload throws with its message; otherwise a quote whose price and change are finite exactly when the fields parse |
| FetchAllData.FetchFmp | netlify/functions/fetchAllData.js:28-36 | a missing key fails first; no first row fails as "Bad FMP data"; otherwise the parsed row |
| FetchAllData.QuoteEntry | netlify/functions/fetchAllData.js:63-73 | the TwelveData quote when it succeeds; after a TwelveData error matching /credits/i with an FMP key set, exactly what the caught FMP call gives (its quote or `{error}` with its message); otherwise `{error}` with the TwelveData message |
| FetchAllData.FmpOnlyAfterCredits | netlify/functions/fetchAllData.js:67 | outside the credits case, FMP's answer cannot affect the entry |
| FetchAllData.CreditsErrorFallsBackToFmp | netlify/functions/fetchAllData.js:67-68 | an error containing "credits" in any letter case, with an FMP key, yields FMP's quote |
| FetchAllData.FredPair | netlify/functions/fetchAllData.js:39-61 | a missing key fails first; a non-array payload fails with "Bad FRED payload (<id>)" and no clean value with "No observations (<id>)"; the price is the first clean value, and a change exists iff a non-zero second exists |
| FetchAllData.GoldReadersAgree | netlify/functions/fetchAllData.js:138-143 | the gold key, read newest-first, agrees with the gold function's chronological reading of the same PM-fix data |
| FetchAllData.Relay | netlify/functions/fetchAllData.js:111-118 | an internal function's body is stored as is; a failed request stores its error |
| FetchAllData.Caught | netlify/functions/fetchAllData.js:139-143 | a thrown error becomes `{error: message}`; a value is stored as is |
| FetchAllData.FetchAll | netlify/functions/fetchAllData.js:5-160 | status is always 200; all nine keys are present in fill order, each holding what its own upstream gave, whatever happened to the others |
| YieldSpread.Assess | netlify/functions/yieldSpread.js:26-53 | a failed leg gives 500 with its error; otherwise spread + two-year = ten-year, and inverted iff two-year > ten-year |
| YieldSpread.Handle | netlify/functions/yieldSpread.js:19-54 | both yields are the first valid observations of DGS10 and DGS2, then assessed |
| YieldSpread.InvertedIffShortAboveLong | netlify/functions/yieldSpread.js:26-27 | with both series readable, inverted iff the newest numeric DGS2 is above the newest numeric DGS10 |
| Buffet.Assess | netlify/functions/netlify/functions/buffet.js:29-57 | a failed leg gives 500 with its error; otherwise ratio × GDP = market value × 100 for non-zero GDP, a zero GDP is not rejected, and overvalued iff ratio > 120 |
| Buffet.Handle | netlify/functions/netlify/functions/buffet.js:20-58 | both values are the first valid observations of WILL5000INDFC and GDP, then assessed |
| Buffet.OvervaluedMeaning | netlify/functions/netlify/functions/buffet.js:29-31 | with positive GDP, overvalued iff market value > 1.2 × GDP; with zero GDP, iff the market value is positive |

## Left out

- HTTP requests, URLs, headers, `res.ok` and JSON parsing. Each upstream answer is an input, and a failed request (non-2xx status included) is an `Err` with its message. The exact text of HTTP error messages is not modelled.
- Environment variables and hard-coded keys. Each key is a boolean input.
- `Date.now()` and the `timestamp` fields of responses. The clock is a parameter; response timestamps are not modelled.
- `toFixed(2)` rounding, wherever the code rounds: gold and fetchAllData changes, the VIX change at `vixIndex.js:121`, the estimate and ratio of `estimatedBuffett.js`, the spread, and the `buffet.js` ratio. Values are exact reals.
- IEEE-754 details: signed zero, overflow, and how `JSON.stringify` writes NaN and infinities (as `null`).
- How text parses as a number. Each text field carries one parse result; the differences between `Number` and `parseFloat` (`""`, numeric prefixes) are not modelled.
- `Promise.all` concurrency in `buffett.js`, `yieldSpread.js` and `buffet.js`. The legs run in sequence; when both fail, the model reports the first leg's error.
- The `setTimeout` pause between constituent requests and all `console` logging.
- The handler `estimatedBuffett.js` installs at module load when `FRED_KEY` is unset. This is module-loading behaviour.
- The `TypeError`s `buffett.js` throws on a non-array `observations` or an observation without a date. They become 500 responses with the runtime's message. The model takes observation arrays whose years are already parsed.
- A null element inside an observations array. `gold.js:21` skips it (`o &&`); the other readers throw a `TypeError` on it (`vixIndex.js:32`, `fetchAllData.js:48`, `yieldSpread.js:10-11`, `estimatedBuffett.js:33-34`, `buffett.js:25-27` and `buffett.js:53-55`). An element is always an object here, so neither behaviour is modelled.
- Buffett.Observation: the year is the parsed first four characters of the date; `parseInt` itself is not modelled.
- Vix.Cache.Handle: the change stored and returned is the unrounded value (see `toFixed` above).

=== FILE: buffet.dfy ===
/** The simple Buffett indicator kept under `netlify/functions/netlify/`: the
    latest Wilshire 5000 full-cap index value over the latest GDP, in percent. */
module Buffet {
  import opened Common
  import Fred

  const MarketCapSeries: string := "WILL5000INDFC"
  const GdpSeries: string := "GDP"
  /** The overvaluation threshold, in percent. */
  const Threshold: real := 120.0

  datatype Body =
    | Indicator(ratio: JsNum, overvalued: bool, marketCap: real, gdp: real)
    | Failure(error: string)

  datatype Response = Response(status: int, body: Body)

  /** The handler once both values are known. A failed leg is a 500 with its
      error, the market-cap leg's first. Otherwise the ratio is the market value
      as a percentage of GDP and the flag says whether it exceeds 120; a zero GDP
      is not rejected and gives an infinite or NaN ratio. */
  function Assess(marketCap: Outcome<real>, gdp: Outcome<real>): (resp: Response)
    ensures marketCap.Err? ==> resp == Response(500, Failure(marketCap.msg))
    ensures marketCap.Ok? && gdp.Err? ==> resp == Response(500, Failure(gdp.msg))
    ensures resp.status == 200 <==> marketCap.Ok? && gdp.Ok?
    ensures resp.status == 200 ==>
              && resp.body.Indicator?
              && resp.body.marketCap == marketCap.value && resp.body.gdp == gdp.value
              && (gdp.value != 0.0 ==> resp.body.ratio.Fin? && resp.body.ratio.r * gdp.value == marketCap.value * 100.0)
              && (gdp.value == 0.0 ==> (resp.body.ratio.NaN? <==> marketCap.value == 0.0))
              && (resp.body.overvalued <==> Greater(resp.body.ratio, Threshold))
  {
    if marketCap.Err? then Response(500, Failure(marketCap.msg))
    else if gdp.Err? then Response(500, Failure(gdp.msg))
    else
      var ratio := Percent(Fin(marketCap.value), Fin(gdp.value));
      Response(200, Indicator(ratio, Greater(ratio, Threshold), marketCap.value, gdp.value))
  }

  /** `exports.handler`: read both series with the first-valid scan, then assess. */
  method Handle(marketCap: Outcome<Option<seq<RawValue>>>, gdp: Outcome<Option<seq<RawValue>>>) returns (resp: Response)
    ensures resp == Assess(Fred.Latest(MarketCapSeries, marketCap), Fred.Latest(GdpSeries, gdp))
  {
    var mc := Fred.LatestValid(MarketCapSeries, marketCap);
    var g := Fred.LatestValid(GdpSeries, gdp);
    resp := Assess(mc, g);
  }

  /** With positive GDP the flag is raised exactly when the market value is above
      1.2 times GDP; with zero GDP, exactly when the market value is positive. */
  lemma OvervaluedMeaning(marketCap: real, gdp: real)
    requires gdp >= 0.0
    ensures var resp := Assess(Ok(marketCap), Ok(gdp));
            && resp.status == 200
            && (gdp > 0.0 ==> (resp.body.overvalued <==> marketCap > 1.2 * gdp))
            && (gdp == 0.0 ==> (resp.body.overvalued <==> marketCap > 0.0))
  {
    if gdp > 0.0 {
      PercentExceeds(marketCap, gdp, Threshold);
    } else {
      PercentOfZero(marketCap, Threshold);
    }
  }
}

=== FILE: buffett.dfy ===
/** The FRED-only Buffett indicator: quarterly corporate-equity market value
    averaged per year, annual GDP per year, and their ratio in the latest year
    both series cover. */
module Buffett {
  import opened Common

  /** One FRED observation: the year its date starts with (None when the first
      four characters do not parse as an integer) and its value field. */
  datatype Observation = Observation(year: Option<int>, value: RawValue)

  /** FRED reports both series in billions of dollars; the handler scales to dollars. */
  const Billion: real := 1000000000.0

  /** `o.value === '.' ? null : Number(o.value) * 1e9`. */
  function Scaled(v: RawValue): (r: Option<JsNum>)
    ensures r.None? <==> v == Dot
    ensures IsNumeric(v) ==> r == Some(Fin(v.parsed.value * Billion))
    ensures v.Null? ==> r == Some(Fin(0.0))
    ensures r.Some? ==> !r.value.PosInf? && !r.value.NegInf?
  {
    if v == Dot then None else Some(Mul(NumberOf(v), Fin(Billion)))
  }

  /** Some observation carries year `y`. */
  predicate Dated(obs: seq<Observation>, y: int) {
    exists j :: 0 <= j < |obs| && obs[j].year == Some(y)
  }

  // ---------- market capitalisation, averaged per year ----------

  /** The values pushed onto year `y`'s array: its non-"." observations, scaled, in order. */
  function YearValues(obs: seq<Observation>, y: int): (vs: seq<JsNum>)
    ensures |vs| <= |obs|
    ensures vs == [] <==> forall j :: 0 <= j < |obs| && obs[j].year == Some(y) ==> obs[j].value == Dot
  {
    if obs == [] then []
    else
      var o := obs[|obs| - 1];
      YearValues(obs[..|obs| - 1], y) + (if o.year == Some(y) && o.value != Dot then [Scaled(o.value).value] else [])
  }

  /** Every value is a finite number. */
  predicate AllFinite(xs: seq<JsNum>) {
    forall i :: 0 <= i < |xs| ==> xs[i].Fin?
  }

  /** `arr.reduce((a, b) => a + b, 0)`. */
  function Sum(xs: seq<JsNum>): (r: JsNum)
    ensures AllFinite(xs) ==> r.Fin?
    ensures (exists i :: 0 <= i < |xs| && xs[i].NaN?) ==> r.NaN?
  {
    if xs == [] then Fin(0.0) else Add(Sum(xs[..|xs| - 1]), xs[|xs| - 1])
  }

  /** The arithmetic mean of a non-empty array. */
  function Mean(xs: seq<JsNum>): (m: JsNum)
    requires xs != []
    ensures Sum(xs).Fin? ==> m == Fin(Sum(xs).r / |xs| as real)
    ensures (exists i :: 0 <= i < |xs| && xs[i].NaN?) ==> m.NaN?
  {
    Div(Sum(xs), Fin(|xs| as real))
  }

  /** `getFREDMarketCapMap`: group the observations by year (a year whose values
      are all "." still gets an empty array), then average every non-empty array.
      `years` lists the keys of the result in the order the `Map` iterates them. */
  method MarketCapByYear(obs: seq<Observation>) returns (avg: map<int, JsNum>, years: seq<int>)
    ensures forall y :: y in avg <==> YearValues(obs, y) != []
    ensures forall y :: y in avg ==> avg[y] == Mean(YearValues(obs, y))
    ensures forall y :: y in avg <==> y in years
  {
    var groups: map<int, seq<JsNum>> := map[];
    var order: seq<int> := [];
    var i := 0;
    while i < |obs|
      invariant 0 <= i <= |obs|
      invariant forall y :: y in groups <==> Dated(obs[..i], y)
      invariant forall y :: y in groups <==> y in order
      invariant forall y :: y in groups ==> groups[y] == YearValues(obs[..i], y)
    {
      var o := obs[i];
      assert obs[..i + 1][..i] == obs[..i];
      assert obs[..i + 1][i] == o;
      forall y | Dated(obs[..i], y) ensures Dated(obs[..i + 1], y) {
        var j :| 0 <= j < i && obs[..i][j].year == Some(y);
        assert obs[..i + 1][j] == obs[..i][j];
      }
      forall y | Dated(obs[..i + 1], y) && o.year != Some(y) ensures Dated(obs[..i], y) {
        var j :| 0 <= j < i + 1 && obs[..i + 1][j].year == Some(y);
        assert obs[..i][j] == obs[..i + 1][j];
      }
      if o.year.Some? {
        var y := o.year.value;
        if y !in groups {
          groups, order := groups[y := []], order + [y];
        }
        if o.value != Dot {
          groups := groups[y := groups[y] + [Scaled(o.value).value]];
        }
      }
      i := i + 1;
    }
    assert obs[..i] == obs;
    avg, years := Averages(groups, order);
  }

  /** The second pass of `getFREDMarketCapMap`: every non-empty array becomes its
      mean, keys kept in their order. */
  method Averages(groups: map<int, seq<JsNum>>, order: seq<int>) returns (avg: map<int, JsNum>, years: seq<int>)
    requires forall y :: y in groups <==> y in order
    ensures forall y :: y in avg <==> y in groups && groups[y] != []
    ensures forall y :: y in avg ==> avg[y] == Mean(groups[y])
    ensures forall y :: y in avg <==> y in years
  {
    avg, years := map[], [];
    for k := 0 to |order|
      invariant forall y :: y in avg <==> y in order[..k] && y in groups && groups[y] != []
      invariant forall y :: y in avg ==> avg[y] == Mean(groups[y])
      invariant forall y :: y in avg <==> y in years
    {
      var y := order[k];
      assert order[..k + 1] == order[..k] + [y];
      if |groups[y]| > 0 {
        avg, years := avg[y := Mean(groups[y])], years + [y];
      }
    }
    assert order[..|order|] == order;
  }

  /** A "." observation, wherever it stands, contributes to neither the sum nor the count. */
  lemma {:induction false} MissingValueIgnored(a: seq<Observation>, d: Option<int>, b: seq<Observation>, y: int)
    ensures YearValues(a + [Observation(d, Dot)] + b, y) == YearValues(a + b, y)
  {
    var dotted := a + [Observation(d, Dot)];
    if b == [] {
      assert dotted + b == dotted;
      assert a + b == a;
      YearValuesSnoc(a, Observation(d, Dot), y);
    } else {
      var init, o := b[..|b| - 1], b[|b| - 1];
      MissingValueIgnored(a, d, init, y);
      assert dotted + b == (dotted + init) + [o];
      assert a + b == (a + init) + [o];
      YearValuesSnoc(dotted + init, o, y);
      YearValuesSnoc(a + init, o, y);
    }
  }

  /** One step of `YearValues`: the observation appended last is judged on its own. */
  lemma YearValuesSnoc(obs: seq<Observation>, o: Observation, y: int)
    ensures YearValues(obs + [o], y)
            == YearValues(obs, y) + (if o.year == Some(y) && o.value != Dot then [Scaled(o.value).value] else [])
  {
    assert (obs + [o])[..|obs|] == obs;
  }

  /** `n * x`, as `n` repeated additions. */
  function Times(n: nat, x: real): real {
    if n == 0 then 0.0 else Times(n - 1, x) + x
  }

  /** A sum of finite values between `lo` and `hi` lies between `n * lo` and `n * hi`. */
  lemma {:induction false} SumBounds(xs: seq<JsNum>, lo: real, hi: real)
    requires forall i :: 0 <= i < |xs| ==> xs[i].Fin? && lo <= xs[i].r <= hi
    ensures Sum(xs).Fin?
    ensures Times(|xs|, lo) <= Sum(xs).r <= Times(|xs|, hi)
  {
    if xs != [] {
      var init := xs[..|xs| - 1];
      SumBounds(init, lo, hi);
      assert Sum(xs) == Fin(Sum(init).r + xs[|xs| - 1].r);
    }
  }

  /** The yearly average of finite quarterly values lies between their least and
      greatest value, so it is never pulled towards 0 by missing quarters. */
  lemma {:induction false} MeanWithin(xs: seq<JsNum>, lo: real, hi: real)
    requires xs != []
    requires forall i :: 0 <= i < |xs| ==> xs[i].Fin? && lo <= xs[i].r <= hi
    ensures Mean(xs).Fin? && lo <= Mean(xs).r <= hi
  {
    SumBounds(xs, lo, hi);
    QuotientWithin(Sum(xs).r, |xs|, lo, hi);
  }

  /** A total between `n * lo` and `n * hi`, divided by `n > 0`, lies between `lo` and `hi`. */
  lemma QuotientWithin(total: real, n: nat, lo: real, hi: real)
    requires n > 0 && Times(n, lo) <= total <= Times(n, hi)
    ensures lo <= total / n as real <= hi
  {
    DivideBounds(Times(n, lo), total, Times(n, hi), n as real);
    TimesOver(n, lo);
    TimesOver(n, hi);
  }

  /** Dividing by a positive number keeps the order. */
  lemma DivideBounds(a: real, b: real, c: real, k: real)
    requires k > 0.0 && a <= b <= c
    ensures a / k <= b / k <= c / k
  {
  }

  /** `n * x` divided by `n > 0` gives `x` back. */
  lemma TimesOver(n: nat, x: real)
    requires n > 0
    ensures Times(n, x) / n as real == x
  {
    TimesIsProduct(n, x);
    var k := n as real;
    assert (k * x) / k == x;
  }

  /** The repeated addition is the product. */
  lemma {:induction false} TimesIsProduct(n: nat, x: real)
    ensures Times(n, x) == n as real * x
  {
    if n > 0 {
      TimesIsProduct(n - 1, x);
      assert n as real * x == (n - 1) as real * x + x;
    }
  }

  /** A year with two numeric quarters and two missing ones averages the two. */
  lemma TwoOfFourQuarters()
    ensures var obs := [Observation(Some(2020), Text(Some(10.0))), Observation(Some(2020), Dot),
                        Observation(Some(2020), Text(Some(12.0))), Observation(Some(2020), Dot)];
            Mean(YearValues(obs, 2020)) == Fin(11.0 * Billion)
  {
    var o0, o1 := Observation(Some(2020), Text(Some(10.0))), Observation(Some(2020), Dot);
    var o2 := Observation(Some(2020), Text(Some(12.0)));
    var obs := [o0, o1, o2, o1];
    assert YearValues(obs, 2020) == [Fin(10.0 * Billion), Fin(12.0 * Billion)] by {
      assert obs[..3] == [o0, o1, o2];
      assert [o0, o1, o2][..2] == [o0, o1];
      assert [o0, o1][..1] == [o0];
      assert [o0][..0] == [];
      assert Scaled(o0.value) == Some(Fin(10.0 * Billion));
      assert Scaled(o2.value) == Some(Fin(12.0 * Billion));
      assert YearValues([o0], 2020) == [Fin(10.0 * Billion)];
      assert YearValues([o0, o1], 2020) == [Fin(10.0 * Billion)];
      assert YearValues([o0, o1, o2], 2020) == [Fin(10.0 * Billion), Fin(12.0 * Billion)];
    }
    MeanOfTwo(10.0 * Billion, 12.0 * Billion);
  }

  lemma MeanOfTwo(a: real, b: real)
    ensures Mean([Fin(a), Fin(b)]) == Fin((a + b) / 2.0)
  {
    assert [Fin(a), Fin(b)][..1] == [Fin(a)];
    assert [Fin(a)][..0] == [];
    assert Sum([Fin(a)]) == Fin(a);
    assert Sum([Fin(a), Fin(b)]) == Fin(a + b);
  }

  // ---------- GDP, one value per year ----------

  /** The value `map.set` leaves for year `y`: that of the last non-"." observation
      dated `y`, scaled. */
  function LastValue(obs: seq<Observation>, y: int): (r: Option<JsNum>)
    ensures r.Some? <==> exists j :: 0 <= j < |obs| && obs[j].year == Some(y) && obs[j].value != Dot
    ensures r.Some? ==> exists j :: 0 <= j < |obs| && obs[j].year == Some(y) && obs[j].value != Dot
                                    && r == Scaled(obs[j].value)
                                    && forall k :: j < k < |obs| && obs[k].year == Some(y) ==> obs[k].value == Dot
  {
    if obs == [] then None
    else
      var o := obs[|obs| - 1];
      var init := obs[..|obs| - 1];
      if o.year == Some(y) && o.value != Dot then Scaled(o.value)
      else
        var r := LastValue(init, y);
        assert forall j :: 0 <= j < |init| ==> init[j] == obs[j];
        r
  }

  /** `getFREDGDPAnnualMap`: a later observation of a year overwrites an earlier one. */
  method GdpByYear(obs: seq<Observation>) returns (gdp: map<int, JsNum>)
    ensures forall y :: y in gdp <==> LastValue(obs, y).Some?
    ensures forall y :: y in gdp ==> Some(gdp[y]) == LastValue(obs, y)
  {
    gdp := map[];
    var i := 0;
    while i < |obs|
      invariant 0 <= i <= |obs|
      invariant forall y :: y in gdp <==> LastValue(obs[..i], y).Some?
      invariant forall y :: y in gdp ==> Some(gdp[y]) == LastValue(obs[..i], y)
    {
      var o := obs[i];
      assert obs[..i + 1][..i] == obs[..i];
      assert obs[..i + 1][i] == o;
      var v := Scaled(o.value);
      if o.year.Some? && v.Some? {
        gdp := gdp[o.year.value := v.value];
      }
      i := i + 1;
    }
    assert obs[..i] == obs;
  }

  /** The last numeric GDP figure of a year wins, whatever came before it. */
  lemma {:induction false} LaterGdpOverwrites(obs: seq<Observation>, y: int, v: RawValue)
    requires v != Dot
    ensures LastValue(obs + [Observation(Some(y), v)], y) == Scaled(v)
  {
  }

  // ---------- year alignment and ratio ----------

  /** `[...mcapMap.keys()].filter(y => gdpMap.has(y)).sort((a, b) => b - a)[0]`:
      the greatest of the market-cap years that GDP also has, None when there is none. */
  method LatestCommonYear(years: seq<int>, gdp: map<int, JsNum>) returns (r: Option<int>)
    ensures r.None? ==> forall y :: y in years ==> y !in gdp
    ensures r.Some? ==> r.value in years && r.value in gdp
    ensures r.Some? ==> forall y :: y in years && y in gdp ==> y <= r.value
  {
    r := None;
    for i := 0 to |years|
      invariant r.None? ==> forall j :: 0 <= j < i ==> years[j] !in gdp
      invariant r.Some? ==> r.value in years && r.value in gdp
      invariant r.Some? ==> forall j :: 0 <= j < i && years[j] in gdp ==> years[j] <= r.value
    {
      if years[i] in gdp && (r.None? || years[i] > r.value) {
        r := Some(years[i]);
      }
    }
  }

  /** What the two FRED requests returned: the observation arrays, or the error. */
  datatype Inputs = Inputs(fredKey: bool, mcap: Outcome<seq<Observation>>, gdp: Outcome<seq<Observation>>)

  datatype Body =
    | Indicator(year: int, ratio: JsNum, marketCapUsd: JsNum, gdpUsd: JsNum)
    | Failure(error: string)

  datatype Response = Response(status: int, body: Body)

  /** Year `y` has a market-cap average and a GDP figure. */
  predicate Covered(inp: Inputs, y: int)
    requires inp.mcap.Ok? && inp.gdp.Ok?
  {
    YearValues(inp.mcap.value, y) != [] && LastValue(inp.gdp.value, y).Some?
  }

  /** `exports.handler`: any error becomes status 500 with its message. */
  method Handle(inp: Inputs) returns (resp: Response)
    ensures resp.status == 200 || resp.status == 500
    ensures resp.status == 200 <==> resp.body.Indicator?
    ensures !inp.fredKey ==> resp == Response(500, Failure("FRED_KEY is missing in environment."))
    ensures inp.fredKey && inp.mcap.Err? ==> resp == Response(500, Failure(inp.mcap.msg))
    ensures inp.fredKey && inp.mcap.Ok? && inp.gdp.Err? ==> resp == Response(500, Failure(inp.gdp.msg))
    ensures inp.fredKey && inp.mcap.Ok? && inp.gdp.Ok? && resp.status == 500 ==>
              && resp.body == Failure("No overlapping year found")
              && forall y :: !Covered(inp, y)
    ensures resp.status == 200 ==>
              && inp.fredKey && inp.mcap.Ok? && inp.gdp.Ok?
              && var y := resp.body.year;
              && Covered(inp, y)
              && (forall y' :: Covered(inp, y') ==> y' <= y)
              && resp.body.marketCapUsd == Mean(YearValues(inp.mcap.value, y))
              && resp.body.gdpUsd == LastValue(inp.gdp.value, y).value
              && resp.body.ratio == Percent(resp.body.marketCapUsd, resp.body.gdpUsd)
  {
    if !inp.fredKey {
      return Response(500, Failure("FRED_KEY is missing in environment."));
    }
    if inp.mcap.Err? {
      return Response(500, Failure(inp.mcap.msg));
    }
    if inp.gdp.Err? {
      return Response(500, Failure(inp.gdp.msg));
    }
    var mcapMap, years := MarketCapByYear(inp.mcap.value);
    var gdpMap := GdpByYear(inp.gdp.value);
    var latest := LatestCommonYear(years, gdpMap);
    assert forall y :: Covered(inp, y) ==> y in mcapMap && y in gdpMap;
    if latest.None? {
      return Response(500, Failure("No overlapping year found"));
    }
    var y := latest.value;
    var mcap, gdp := mcapMap[y], gdpMap[y];
    assert Covered(inp, y);
    assert Some(gdp) == LastValue(inp.gdp.value, y);
    resp := Response(200, Indicator(y, Percent(mcap, gdp), mcap, gdp));
  }

  /** The 1e9 scaling of both series cancels in the ratio. */
  lemma ScalingCancels(mcap: real, gdp: real)
    requires gdp != 0.0
    ensures Percent(Fin(mcap * Billion), Fin(gdp * Billion)) == Percent(Fin(mcap), Fin(gdp))
  {
    PercentScaleFree(mcap, gdp, Billion);
  }
}

=== FILE: common.dfy ===
/** Values shared by every handler: optional values, the outcome of one upstream
    attempt, the raw JSON fields upstreams send, and JavaScript numbers. */
module Common {

  datatype Option<+T> = None | Some(value: T)

  /** The outcome of asking one upstream: a value, or the message of the error
      the attempt threw (transport failures and non-2xx statuses included). */
  datatype Outcome<+T> = Ok(value: T) | Err(msg: string)

  /** A JSON field as an upstream sends it: FRED's missing-value marker ".",
      null, an absent field, or any other text together with what it parses to
      as a number (None when it does not parse). */
  datatype RawValue = Dot | Null | Undefined | Text(parsed: Option<real>)

  /** The first row of a Financial Modeling Prep quote array. */
  datatype FmpRow = FmpRow(price: RawValue, changesPercentage: RawValue)

  /** A TwelveData quote payload: whether `status === 'error'`, its `message`
      ("" when absent), its `close` and `percent_change` fields, and the payload
      serialised as JSON text. */
  datatype TdPayload = TdPayload(statusError: bool, message: string, close: RawValue,
                                 percentChange: RawValue, json: string)

  /** True of the values `o.value !== '.' && o.value != null && !isNaN(Number(o.value))`
      keeps: exactly the texts that parse as numbers. */
  predicate IsNumeric(v: RawValue) {
    v.Text? && v.parsed.Some?
  }

  /** `parseFloat(v)`: only text can parse. */
  function ParseFloat(v: RawValue): (r: Option<real>)
    ensures r.Some? <==> IsNumeric(v)
  {
    if v.Text? then v.parsed else None
  }

  // ---------- JavaScript numbers ----------

  /** A JavaScript number: finite, one of the infinities, or NaN. Signed zero is
      not distinguished from zero. */
  datatype JsNum = Fin(r: real) | PosInf | NegInf | NaN

  /** `Number(v)`: null converts to 0; undefined, "." and unparseable text to NaN. */
  function NumberOf(v: RawValue): (r: JsNum)
    ensures r.Fin? <==> v.Null? || IsNumeric(v)
    ensures IsNumeric(v) ==> r == Fin(v.parsed.value)
    ensures v.Null? ==> r == Fin(0.0)
    ensures !r.PosInf? && !r.NegInf?
  {
    match v
    case Null => Fin(0.0)
    case Text(p) => if p.Some? then Fin(p.value) else NaN
    case _ => NaN
  }

  /** A parse result as a number: NaN where the parse failed. */
  function OrNaN(p: Option<real>): JsNum {
    if p.Some? then Fin(p.value) else NaN
  }

  function Neg(a: JsNum): JsNum {
    match a
    case Fin(x) => Fin(-x)
    case PosInf => NegInf
    case NegInf => PosInf
    case NaN => NaN
  }

  function Add(a: JsNum, b: JsNum): JsNum {
    match (a, b)
    case (Fin(x), Fin(y)) => Fin(x + y)
    case (NaN, _) => NaN
    case (_, NaN) => NaN
    case (PosInf, NegInf) => NaN
    case (NegInf, PosInf) => NaN
    case (PosInf, _) => PosInf
    case (NegInf, _) => NegInf
    case (_, PosInf) => PosInf
    case (_, NegInf) => NegInf
  }

  function Sub(a: JsNum, b: JsNum): JsNum {
    Add(a, Neg(b))
  }

  /** The number is greater than zero. */
  predicate Positive(a: JsNum) {
    a.PosInf? || (a.Fin? && a.r > 0.0)
  }

  /** The infinity of the given sign. */
  function Infinity(positive: bool): JsNum {
    if positive then PosInf else NegInf
  }

  function Mul(a: JsNum, b: JsNum): JsNum {
    if a.NaN? || b.NaN? then NaN
    else if a.Fin? && b.Fin? then Fin(a.r * b.r)
    else if a == Fin(0.0) || b == Fin(0.0) then NaN
    else Infinity(Positive(a) == Positive(b))
  }

  function Div(a: JsNum, b: JsNum): JsNum {
    if a.NaN? || b.NaN? then NaN
    else if a.Fin? && b.Fin? then
      if b.r != 0.0 then Fin(a.r / b.r)
      else if a.r == 0.0 then NaN
      else Infinity(a.r > 0.0)
    else if !a.Fin? && !b.Fin? then NaN
    else if b.Fin? then Infinity(a.PosInf? == (b.r >= 0.0))
    else Fin(0.0)
  }

  /** `(a / b) * 100`: `a` as a percentage of `b`. */
  function Percent(a: JsNum, b: JsNum): (r: JsNum)
    ensures a.Fin? && b.Fin? && b.r != 0.0 ==> r.Fin? && r.r * b.r == a.r * 100.0
    ensures a.Fin? && b.Fin? && b.r == 0.0 ==> (r.NaN? <==> a.r == 0.0)
    ensures a.NaN? || b.NaN? ==> r.NaN?
  {
    Mul(Div(a, b), Fin(100.0))
  }

  /** Scaling both operands by the same positive factor leaves the percentage unchanged. */
  lemma PercentScaleFree(a: real, b: real, k: real)
    requires b != 0.0 && k > 0.0
    ensures Percent(Fin(a * k), Fin(b * k)) == Percent(Fin(a), Fin(b))
  {
  }

  /** `a > t`: false for NaN, true for +Infinity. */
  predicate Greater(a: JsNum, t: real) {
    match a
    case Fin(x) => x > t
    case PosInf => true
    case _ => false
  }

  /** Over a positive base, the percentage exceeds `t` exactly when `a` exceeds
      `t` percent of the base. */
  lemma PercentExceeds(a: real, b: real, t: real)
    requires b > 0.0
    ensures Greater(Percent(Fin(a), Fin(b)), t) <==> a * 100.0 > t * b
  {
  }

  /** Over a zero base, the percentage is +Infinity for a positive `a`, -Infinity
      for a negative one and NaN for zero, so it exceeds any `t` exactly when `a`
      is positive. */
  lemma PercentOfZero(a: real, t: real)
    ensures Greater(Percent(Fin(a), Fin(0.0)), t) <==> a > 0.0
  {
  }

  // ---------- small helpers ----------

  /** Percentage change from `prior` to `latest`, `((latest - prior) / prior) * 100`. */
  function PctChange(latest: real, prior: real): (r: real)
    requires prior != 0.0
    ensures r * prior == (latest - prior) * 100.0
  {
    ((latest - prior) / prior) * 100.0
  }

  lemma PctChangeSign(latest: real, prior: real)
    requires prior > 0.0
    ensures PctChange(latest, prior) > 0.0 <==> latest > prior
    ensures PctChange(latest, prior) == 0.0 <==> latest == prior
  {
  }

  /** A string with every ASCII upper-case letter lowered, which is what a
      case-insensitive regular expression without the `u` flag compares. */
  function LowerAscii(s: string): (r: string)
    ensures |r| == |s|
    ensures forall i :: 0 <= i < |s| ==> r[i] == (if 'A' <= s[i] <= 'Z' then (s[i] as int + 32) as char else s[i])
  {
    if s == [] then []
    else [if 'A' <= s[0] <= 'Z' then (s[0] as int + 32) as char else s[0]] + LowerAscii(s[1..])
  }

  /** "credits", in any ASCII case, starts at position `i` of `s`. */
  predicate CreditsAt(s: string, i: int)
    ensures CreditsAt(s, i) ==> 0 <= i && i + 7 <= |s| && (s[i] == 'c' || s[i] == 'C')
  {
    0 <= i && i + 7 <= |s| && LowerAscii(s[i..i + 7]) == "credits"
  }

  /** `/credits/i.test(s)`. */
  predicate MentionsCredits(s: string)
    ensures MentionsCredits(s) ==> |s| >= 7 && exists i :: 0 <= i <= |s| - 7 && (s[i] == 'c' || s[i] == 'C')
  {
    exists i :: 0 <= i <= |s| && CreditsAt(s, i)
  }
}

=== FILE: estimated_buffett.dfy ===
/** The estimated Buffett indicator: the market value of fifteen large S&P 500
    constituents (cached for 30 minutes), or an SPY-based estimate when that
    fails, scaled up to the whole market and divided by the latest GDP. */
module EstimatedBuffett {
  import opened Common
  import Fred

  const SpyShares: real := 1024000000.0
  const Multiplier: real := 1.30
  const Billion: real := 1000000000.0
  /** How long an aggregated constituent value is reused: 30 minutes, in milliseconds. */
  const CacheTtlMs: int := 30 * 60 * 1000
  /** The overvaluation threshold, in percent. */
  const Threshold: real := 120.0

  /** The trimmed constituent list, in the order they are fetched. */
  const Tickers: seq<string> := ["AAPL", "MSFT", "NVDA", "GOOGL", "AMZN", "BRK-B", "META", "TSLA",
                                 "UNH", "JNJ", "V", "PG", "MA", "XOM", "JPM"]

  /** What FMP's profile endpoint gave for one symbol: the request failed (an
      exception or a non-2xx status), the payload held no row, or the first row,
      with its `marketCap` when that is a number. */
  datatype ProfileFetch = Unreachable | NoRows | Profile(marketCap: Option<real>)

  /** The amount one profile adds to the total: its market cap when that is a
      positive number, nothing otherwise. */
  function Contribution(p: ProfileFetch): (c: real)
    ensures c >= 0.0
    ensures c > 0.0 <==> p.Profile? && p.marketCap.Some? && p.marketCap.value > 0.0
  {
    if p.Profile? && p.marketCap.Some? && p.marketCap.value > 0.0 then p.marketCap.value else 0.0
  }

  /** What the profile endpoint gave for each ticker, in fetch order. */
  function Responses(profile: string -> ProfileFetch): (ps: seq<ProfileFetch>)
    ensures |ps| == |Tickers|
    ensures forall i :: 0 <= i < |Tickers| ==> ps[i] == profile(Tickers[i])
  {
    seq(|Tickers|, i requires 0 <= i < |Tickers| => profile(Tickers[i]))
  }

  /** The running total of the aggregation loop. */
  function Total(ps: seq<ProfileFetch>): (t: real)
    ensures t >= 0.0
    ensures (exists i :: 0 <= i < |ps| && Contribution(ps[i]) > 0.0) ==> t > 0.0
  {
    if ps == [] then 0.0 else Total(ps[..|ps| - 1]) + Contribution(ps[|ps| - 1])
  }

  /** The total is zero exactly when no profile had a positive numeric market cap. */
  lemma {:induction false} TotalZeroIffNoCap(ps: seq<ProfileFetch>)
    ensures Total(ps) == 0.0 <==> forall i :: 0 <= i < |ps| ==> Contribution(ps[i]) == 0.0
  {
    if ps != [] {
      var init := ps[..|ps| - 1];
      TotalZeroIffNoCap(init);
      assert forall i :: 0 <= i < |init| ==> init[i] == ps[i];
    }
  }

  /** A symbol whose request fails or whose row is unusable changes nothing: the
      loop skips it and goes on. */
  lemma {:induction false} SkippedSymbolAddsNothing(ps: seq<ProfileFetch>, p: ProfileFetch)
    requires Contribution(p) == 0.0
    ensures Total(ps + [p]) == Total(ps)
  {
  }

  /** What `fetchSP500CapTopConstituents` resolves to, as a function of the cache
      contents it starts from: the cached value when usable, otherwise the
      aggregated total in billions. */
  function ConstituentCap(cacheUsable: bool, cached: real, fmpKey: bool, ps: seq<ProfileFetch>): (r: Outcome<real>)
    ensures cacheUsable ==> r == Ok(cached)
    ensures !cacheUsable && !fmpKey ==> r == Err("No FMP_KEY for constituent fetch")
    ensures !cacheUsable && fmpKey ==>
              r == if Total(ps) == 0.0 then Err("Failed to aggregate any constituent market caps")
                   else Ok(Total(ps) / Billion)
    ensures !cacheUsable && fmpKey ==>
              (r.Err? <==> forall i :: 0 <= i < |ps| ==> Contribution(ps[i]) == 0.0)
    ensures !cacheUsable && fmpKey && r.Ok? ==> r.value > 0.0
  {
    TotalZeroIffNoCap(ps);
    if cacheUsable then Ok(cached)
    else if !fmpKey then Err("No FMP_KEY for constituent fetch")
    else if Total(ps) == 0.0 then Err("Failed to aggregate any constituent market caps")
    else Ok(Total(ps) / Billion)
  }

  /** The module-level `cachedConstituent` record. */
  class ConstituentCache {
    var timestamp: int
    var capBillions: Option<real>

    constructor ()
      ensures timestamp == 0 && capBillions == None
    {
      timestamp, capBillions := 0, None;
    }

    /** The record is reused at time `now`: its value is truthy and younger than 30 minutes. */
    predicate Usable(now: int)
      reads this
      ensures Usable(now) ==> capBillions.Some? && capBillions.value != 0.0 && timestamp > now - CacheTtlMs
    {
      capBillions.Some? && capBillions.value != 0.0 && now - timestamp < CacheTtlMs
    }

    /** `fetchSP500CapTopConstituents`: serve a usable record without fetching;
        otherwise sum the positive numeric caps of the fifteen profiles, skipping
        any symbol that fails, and store a non-zero total with the time `now`. */
    method FetchConstituents(now: int, fmpKey: bool, profile: string -> ProfileFetch) returns (r: Outcome<real>)
      modifies this
      ensures r == ConstituentCap(old(Usable(now)), if old(capBillions).Some? then old(capBillions).value else 0.0,
                                  fmpKey, Responses(profile))
      ensures r.Ok? && !old(Usable(now)) ==> timestamp == now && capBillions == Some(r.value)
      ensures r.Err? || old(Usable(now)) ==> unchanged(this)
      ensures r.Ok? ==> Usable(now)
    {
      if Usable(now) {
        return Ok(capBillions.value);
      }
      if !fmpKey {
        return Err("No FMP_KEY for constituent fetch");
      }
      ghost var ps := Responses(profile);
      var total := 0.0;
      for i := 0 to |Tickers|
        invariant total == Total(ps[..i])
      {
        assert ps[..i + 1][..i] == ps[..i];
        var p := profile(Tickers[i]);
        if p.Profile? && p.marketCap.Some? && p.marketCap.value > 0.0 {
          total := total + p.marketCap.value;
        }
      }
      assert ps[..|Tickers|] == ps;
      if total == 0.0 {
        return Err("Failed to aggregate any constituent market caps");
      }
      timestamp, capBillions := now, Some(total / Billion);
      r := Ok(total / Billion);
    }
  }

  /** How many characters of the payload the SPY error message quotes. */
  const SnippetLength: nat := 200

  /** `fetchSPYBasedCap`: an error payload or one without `close` is rejected
      with the first 200 characters of its JSON text; a close that does not parse
      is rejected; otherwise price times the share count, in billions. */
  function SpyBasedCap(fetched: Outcome<TdPayload>): (r: Outcome<real>)
    ensures fetched.Ok? && (fetched.value.statusError || fetched.value.close.Undefined?) ==>
              && r.Err?
              && "Bad SPY data fallback: " <= r.msg
              && |r.msg| <= |"Bad SPY data fallback: "| + SnippetLength
              && var tail := r.msg[|"Bad SPY data fallback: "|..];
                 && tail <= fetched.value.json
                 && (|tail| == SnippetLength || tail == fetched.value.json)
    ensures fetched.Err? ==> r == Err(fetched.msg)
    ensures (fetched.Ok? && !fetched.value.statusError && !fetched.value.close.Undefined?
             && ParseFloat(fetched.value.close).None?) ==> r == Err("Invalid SPY price")
    ensures r.Ok? <==> (fetched.Ok? && !fetched.value.statusError && !fetched.value.close.Undefined?
                        && ParseFloat(fetched.value.close).Some?)
    ensures r.Ok? ==> r.value * Billion == ParseFloat(fetched.value.close).value * SpyShares
    ensures r.Ok? ==> r.value == ParseFloat(fetched.value.close).value * 1.024
  {
    if fetched.Err? then Err(fetched.msg)
    else
      var json := fetched.value;
      if json.statusError || json.close.Undefined? then
        Err("Bad SPY data fallback: " + json.json[..if |json.json| < SnippetLength then |json.json| else SnippetLength])
      else
        match ParseFloat(json.close)
        case None => Err("Invalid SPY price")
        case Some(price) => Ok(price * SpyShares / Billion)
  }

  /** The ratio and its inputs as the handler reports them. */
  datatype Assessment = Assessment(ratio: real, overvalued: bool, estimatedTotal: real,
                                   sp500Cap: real, gdp: real, source: string)

  /** Lines 112 to 117 of the handler: scale the S&P 500 value to the whole
      market, reject a zero GDP, and compare the ratio with 120%. */
  function Assess(sp500Cap: real, source: string, gdp: Outcome<real>): (r: Outcome<Assessment>)
    ensures gdp.Err? ==> r == Err(gdp.msg)
    ensures gdp == Ok(0.0) ==> r == Err("GDP returned zero")
    ensures r.Ok? <==> gdp.Ok? && gdp.value != 0.0
    ensures r.Ok? ==> && r.value.estimatedTotal == sp500Cap * Multiplier
                      && r.value.ratio * gdp.value == r.value.estimatedTotal * 100.0
                      && (r.value.overvalued <==> r.value.ratio > Threshold)
                      && r.value.sp500Cap == sp500Cap && r.value.gdp == gdp.value && r.value.source == source
  {
    if gdp.Err? then Err(gdp.msg)
    else if gdp.value == 0.0 then Err("GDP returned zero")
    else
      var estimated := sp500Cap * Multiplier;
      var ratio := (estimated / gdp.value) * 100.0;
      Ok(Assessment(ratio, ratio > Threshold, estimated, sp500Cap, gdp.value, source))
  }

  /** With positive GDP, the flag is raised exactly when the estimated market
      value exceeds 1.2 times GDP. */
  lemma OvervaluedMeansAboveGdp(sp500Cap: real, source: string, gdp: real)
    requires gdp > 0.0
    ensures Assess(sp500Cap, source, Ok(gdp)).Ok?
    ensures Assess(sp500Cap, source, Ok(gdp)).value.overvalued <==> sp500Cap * Multiplier > 1.2 * gdp
  {
    var a := Assess(sp500Cap, source, Ok(gdp)).value;
    var e := sp500Cap * Multiplier;
    assert a.ratio * gdp == e * 100.0;
    if a.ratio > Threshold {
      assert a.ratio * gdp > Threshold * gdp;
    }
    if e > 1.2 * gdp {
      assert a.ratio * gdp > Threshold * gdp;
    }
  }

  const ConstituentSource: string := "Top trimmed constituents (FMP)"
  const SpySource: string := "SPY-based fallback"

  /** Everything the handler depends on besides the cache. */
  datatype Inputs = Inputs(fmpKey: bool, profile: string -> ProfileFetch,
                           spy: Outcome<TdPayload>, gdp: Outcome<Option<seq<RawValue>>>)

  datatype Response = Response(status: int, body: Outcome<Assessment>)

  /** The S&P 500 value and the label of the path that produced it: the
      constituents, or SPY only when the constituents failed. */
  function Cap(constituents: Outcome<real>, spy: Outcome<TdPayload>): (r: Outcome<(real, string)>)
    ensures constituents.Ok? ==> r == Ok((constituents.value, ConstituentSource))
    ensures r.Ok? <==> constituents.Ok? || SpyBasedCap(spy).Ok?
    ensures constituents.Err? && r.Ok? ==> r.value.1 == SpySource && SpyBasedCap(spy) == Ok(r.value.0)
    ensures constituents.Err? && r.Err? ==> r == Err(SpyBasedCap(spy).msg)
  {
    if constituents.Ok? then Ok((constituents.value, ConstituentSource))
    else match SpyBasedCap(spy)
      case Ok(v) => Ok((v, SpySource))
      case Err(m) => Err(m)
  }

  /** `exports.handler`: resolve the S&P 500 value, then fetch GDP; any error is
      a 500 response with its message. */
  method Handle(cache: ConstituentCache, inp: Inputs, now: int) returns (resp: Response)
    modifies cache
    ensures var c := ConstituentCap(old(cache.Usable(now)),
                                    if old(cache.capBillions).Some? then old(cache.capBillions).value else 0.0,
                                    inp.fmpKey, Responses(inp.profile));
            var cap := Cap(c, inp.spy);
            && (cap.Err? ==> resp == Response(500, Err(cap.msg)))
            && (cap.Ok? ==> var gdp := Fred.Latest("GDP", inp.gdp);
                            var a := Assess(cap.value.0, cap.value.1, gdp);
                            resp == Response(if a.Ok? then 200 else 500, a))
    ensures var c := ConstituentCap(old(cache.Usable(now)),
                                    if old(cache.capBillions).Some? then old(cache.capBillions).value else 0.0,
                                    inp.fmpKey, Responses(inp.profile));
            && (c.Ok? && !old(cache.Usable(now)) ==> cache.timestamp == now && cache.capBillions == Some(c.value))
            && (c.Err? || old(cache.Usable(now)) ==> unchanged(cache))
            && (c.Ok? ==> cache.Usable(now))
  {
    var c := cache.FetchConstituents(now, inp.fmpKey, inp.profile);
    var cap := Cap(c, inp.spy);
    if cap.Err? {
      return Response(500, Err(cap.msg));
    }
    var gdp := Fred.LatestValid("GDP", inp.gdp);
    var a := Assess(cap.value.0, cap.value.1, gdp);
    resp := Response(if a.Ok? then 200 else 500, a);
  }
}

=== FILE: fallback.dfy ===
/** An ordered chain of upstream attempts: try each in turn, stop at the first
    success, and keep the message of every failure in attempt order. */
module Fallback {
  import opened Common

  /** Index of the first successful outcome, or None when every outcome failed. */
  function FirstOk<T>(outs: seq<Outcome<T>>): (r: Option<nat>)
    ensures r.Some? ==> r.value < |outs| && outs[r.value].Ok?
    ensures r.Some? ==> forall j :: 0 <= j < r.value ==> outs[j].Err?
    ensures r.None? ==> forall j :: 0 <= j < |outs| ==> outs[j].Err?
  {
    if outs == [] then None
    else if outs[0].Ok? then Some(0)
    else match FirstOk(outs[1..])
      case None => None
      case Some(k) => Some(k + 1)
  }

  /** How many attempts the chain makes: up to and including the first success,
      or all of them. */
  function Attempts<T>(outs: seq<Outcome<T>>): (n: nat)
    ensures n <= |outs|
  {
    match FirstOk(outs)
    case Some(k) => k + 1
    case None => |outs|
  }

  /** The diagnostic trail: the messages of the failures before the first success. */
  function Trail<T>(outs: seq<Outcome<T>>): (t: seq<string>)
    ensures |t| == match FirstOk(outs) case Some(k) => k case None => |outs|
    ensures forall i :: 0 <= i < |t| ==> outs[i].Err? && t[i] == outs[i].msg
  {
    if outs == [] || outs[0].Ok? then []
    else [outs[0].msg] + Trail(outs[1..])
  }

  /** The value the chain resolves to, if any attempt succeeds. */
  function Winner<T>(outs: seq<Outcome<T>>): (w: Option<T>)
    ensures w.Some? <==> exists i :: 0 <= i < |outs| && outs[i].Ok?
    ensures w.Some? ==> w == Some(outs[FirstOk(outs).value].value)
  {
    match FirstOk(outs)
    case Some(k) => Some(outs[k].value)
    case None => None
  }

  /** The handlers' loop: invoke the attempts in order and return at the first
      success; every failure appends its message to `tried`. */
  method TryInOrder<T>(outs: seq<Outcome<T>>) returns (won: Option<T>, tried: seq<string>, attempts: nat)
    ensures won == Winner(outs)
    ensures tried == Trail(outs)
    ensures attempts == Attempts(outs)
    ensures won.Some? ==> |tried| == attempts - 1
    ensures won.None? ==> |tried| == attempts == |outs|
  {
    tried := [];
    var i := 0;
    while i < |outs|
      invariant 0 <= i <= |outs|
      invariant forall j :: 0 <= j < i ==> outs[j].Err?
      invariant tried == Trail(outs[..i])
    {
      match outs[i]
      case Ok(v) =>
        TrailPrefix(outs, i);
        won, attempts := Some(v), i + 1;
        return;
      case Err(m) =>
        TrailExtend(outs, i);
        tried := tried + [m];
      i := i + 1;
    }
    assert outs[..i] == outs;
    won, attempts := None, |outs|;
  }

  /** The trail of an all-failed prefix grows by one message per failed attempt. */
  lemma {:induction false} TrailExtend<T>(outs: seq<Outcome<T>>, i: nat)
    requires i < |outs| && outs[i].Err?
    requires forall j :: 0 <= j < i ==> outs[j].Err?
    ensures Trail(outs[..i + 1]) == Trail(outs[..i]) + [outs[i].msg]
  {
    var a, b := Trail(outs[..i + 1]), Trail(outs[..i]) + [outs[i].msg];
    var longer, shorter := outs[..i + 1], outs[..i];
    assert forall j :: 0 <= j < |longer| ==> longer[j].Err?;
    assert forall j :: 0 <= j < |shorter| ==> shorter[j].Err?;
    assert |a| == |b|;
    forall k | 0 <= k < |a| ensures a[k] == b[k] {
      if k < i { assert outs[..i + 1][k] == outs[..i][k]; }
    }
  }

  /** Once attempt `i` succeeds after failures only, the trail so far is the whole trail. */
  lemma {:induction false} TrailPrefix<T>(outs: seq<Outcome<T>>, i: nat)
    requires i < |outs| && outs[i].Ok?
    requires forall j :: 0 <= j < i ==> outs[j].Err?
    ensures FirstOk(outs) == Some(i)
    ensures Trail(outs[..i]) == Trail(outs)
    ensures Winner(outs) == Some(outs[i].value) && Attempts(outs) == i + 1
  {
    var f := FirstOk(outs);
    assert f == Some(i);
    var prefix := outs[..i];
    assert forall j :: 0 <= j < |prefix| ==> prefix[j].Err?;
    var a, b := Trail(outs[..i]), Trail(outs);
    assert |a| == |b|;
    forall k | 0 <= k < |a| ensures a[k] == b[k] {
      assert outs[..i][k] == outs[k];
    }
  }

  /** Only the attempts the chain actually makes decide its result: what any
      later source would have answered changes neither the winner nor the trail. */
  lemma {:induction false} LaterSourcesIrrelevant<T>(outs: seq<Outcome<T>>, other: seq<Outcome<T>>)
    requires FirstOk(outs).Some?
    requires |other| >= Attempts(outs) && other[..Attempts(outs)] == outs[..Attempts(outs)]
    ensures FirstOk(other) == FirstOk(outs)
    ensures Winner(other) == Winner(outs) && Trail(other) == Trail(outs)
  {
    var k := FirstOk(outs).value;
    assert forall j :: 0 <= j <= k ==> other[j] == other[..k + 1][j] == outs[..k + 1][j] == outs[j];
    TrailPrefix(other, k);
    TrailPrefix(outs, k);
    assert other[..k] == outs[..k] by {
      assert forall j :: 0 <= j < k ==> other[..k][j] == other[j];
    }
  }

  /** A chain that is all failures reports every attempt, in order. */
  lemma {:induction false} ExhaustedTrailIsComplete<T>(outs: seq<Outcome<T>>)
    requires forall j :: 0 <= j < |outs| ==> outs[j].Err?
    ensures Winner(outs).None? && Attempts(outs) == |outs|
    ensures Trail(outs) == seq(|outs|, j requires 0 <= j < |outs| => outs[j].msg)
  {
  }
}

=== FILE: fetch_all.dfy ===
/** The fan-out handler behind the dashboard: nine keys filled one after the
    other, each from its own upstream, each failure caught and recorded under
    its own key, and the whole answered with status 200. */
module FetchAllData {
  import opened Common
  import Fred
  import Gold

  /** What the handler stores under one key. */
  datatype Entry =
    | Market(price: JsNum, pct: JsNum)      // a TwelveData or FMP quote, `parseFloat`ed
    | Series(level: real, change: Option<real>) // a FRED pair, sent as `price` and `pct`
    | Relayed(json: string)                  // the body of one of the site's own functions
    | Failed(error: string)                  // `{ error: err.message }`

  /** `fetchTwelve`: a payload flagged as an error throws its message; otherwise
      the close and the percent change, NaN where they do not parse. */
  function FetchTwelve(fetched: Outcome<TdPayload>): (r: Outcome<Entry>)
    ensures fetched.Err? ==> r == Err(fetched.msg)
    ensures fetched.Ok? && fetched.value.statusError ==> r == Err(fetched.value.message)
    ensures r.Ok? <==> fetched.Ok? && !fetched.value.statusError
    ensures r.Ok? ==> && r.value.Market?
                      && (r.value.price.Fin? <==> IsNumeric(fetched.value.close))
                      && (r.value.price.Fin? ==> r.value.price.r == fetched.value.close.parsed.value)
                      && (r.value.pct.Fin? <==> IsNumeric(fetched.value.percentChange))
                      && (r.value.pct.Fin? ==> r.value.pct.r == fetched.value.percentChange.parsed.value)
  {
    if fetched.Err? then Err(fetched.msg)
    else if fetched.value.statusError then Err(fetched.value.message)
    else Ok(Market(OrNaN(ParseFloat(fetched.value.close)), OrNaN(ParseFloat(fetched.value.percentChange))))
  }

  /** `fetchFMP`: the first row of the quote array, `parseFloat`ed; a missing key
      fails before any request, a payload without a first row afterwards. */
  function FetchFmp(fmpKey: bool, fetched: Outcome<Option<FmpRow>>): (r: Outcome<Entry>)
    ensures !fmpKey ==> r == Err("FMP_KEY missing")
    ensures fmpKey && fetched.Err? ==> r == Err(fetched.msg)
    ensures fmpKey && fetched.Ok? && fetched.value.None? ==> r == Err("Bad FMP data")
    ensures r.Ok? <==> fmpKey && fetched.Ok? && fetched.value.Some?
    ensures r.Ok? ==> var row := fetched.value.value;
                      r.value == Market(OrNaN(ParseFloat(row.price)), OrNaN(ParseFloat(row.changesPercentage)))
  {
    if !fmpKey then Err("FMP_KEY missing")
    else if fetched.Err? then Err(fetched.msg)
    else if fetched.value.None? then Err("Bad FMP data")
    else
      var row := fetched.value.value;
      Ok(Market(OrNaN(ParseFloat(row.price)), OrNaN(ParseFloat(row.changesPercentage))))
  }

  /** The answers one market symbol may get: from TwelveData, and from FMP should
      it be asked. */
  datatype Quotes = Quotes(td: Outcome<TdPayload>, fmp: Outcome<Option<FmpRow>>)

  /** What one market key ends up holding: the TwelveData quote; after a
      TwelveData error that mentions credits, and only when an FMP key is set,
      whatever FMP gives; otherwise the TwelveData error. */
  function QuoteEntry(fmpKey: bool, q: Quotes): (e: Entry)
    ensures FetchTwelve(q.td).Ok? ==> e == FetchTwelve(q.td).value
    ensures e.Market? <==> FetchTwelve(q.td).Ok? || (MentionsCredits(FetchTwelve(q.td).msg) && FetchFmp(fmpKey, q.fmp).Ok?)
    ensures e.Failed? && !(fmpKey && MentionsCredits(FetchTwelve(q.td).msg)) ==> e.error == FetchTwelve(q.td).msg
    ensures e.Failed? && fmpKey && MentionsCredits(FetchTwelve(q.td).msg) ==> e.error == FetchFmp(fmpKey, q.fmp).msg
    ensures e.Market? || e.Failed?
    ensures FetchTwelve(q.td).Err? && fmpKey && MentionsCredits(FetchTwelve(q.td).msg) ==>
              e == Caught(FetchFmp(fmpKey, q.fmp))
    ensures FetchTwelve(q.td).Err? && !(fmpKey && MentionsCredits(FetchTwelve(q.td).msg)) ==>
              e == Failed(FetchTwelve(q.td).msg)
  {
    match FetchTwelve(q.td)
    case Ok(v) => v
    case Err(m) =>
      if MentionsCredits(m) && fmpKey then
        match FetchFmp(fmpKey, q.fmp)
        case Ok(v) => v
        case Err(fm) => Failed(fm)
      else Failed(m)
  }

  /** FMP's answer matters only after a TwelveData error about credits with an
      FMP key set: in every other case it can be anything at all. */
  lemma FmpOnlyAfterCredits(fmpKey: bool, td: Outcome<TdPayload>, fmp1: Outcome<Option<FmpRow>>, fmp2: Outcome<Option<FmpRow>>)
    requires !(fmpKey && FetchTwelve(td).Err? && MentionsCredits(FetchTwelve(td).msg))
    ensures QuoteEntry(fmpKey, Quotes(td, fmp1)) == QuoteEntry(fmpKey, Quotes(td, fmp2))
  {
  }

  /** A TwelveData error whose message contains "credits" in any case, such as
      its rate-limit message, hands the key to FMP when an FMP key is set. */
  lemma CreditsErrorFallsBackToFmp(before: string, word: string, after: string, row: FmpRow)
    requires LowerAscii(word) == "credits"
    ensures var td := Ok(TdPayload(true, before + word + after, Undefined, Undefined, ""));
            QuoteEntry(true, Quotes(td, Ok(Some(row)))) == Market(OrNaN(ParseFloat(row.price)), OrNaN(ParseFloat(row.changesPercentage)))
  {
    var m := before + word + after;
    assert m[|before|..|before| + |word|] == word;
    assert CreditsAt(m, |before|);
  }

  /** `fredLatestPair`: a newest-first FRED series, filtered to its numeric
      values; the latest is the first of them and the prior the second. */
  function FredPair(fredKey: bool, seriesId: string, fetched: Outcome<Option<seq<RawValue>>>): (r: Outcome<Entry>)
    ensures !fredKey ==> r == Err("FRED_KEY missing")
    ensures fredKey && fetched.Err? ==> r == Err(fetched.msg)
    ensures fredKey && fetched.Ok? && fetched.value.None? ==> r == Err("Bad FRED payload (" + seriesId + ")")
    ensures fredKey && fetched.Ok? && fetched.value.Some? && Fred.Clean(fetched.value.value) == [] ==>
              r == Err("No observations (" + seriesId + ")")
    ensures r.Ok? <==> fredKey && fetched.Ok? && fetched.value.Some? && Fred.Clean(fetched.value.value) != []
    ensures r.Ok? ==> var c := Fred.Clean(fetched.value.value);
                      && r.value.Series?
                      && r.value.level == c[0]
                      && (r.value.change.Some? <==> |c| > 1 && c[1] != 0.0)
                      && (r.value.change.Some? ==> r.value.change.value == PctChange(c[0], c[1]))
  {
    if !fredKey then Err("FRED_KEY missing")
    else if fetched.Err? then Err(fetched.msg)
    else if fetched.value.None? then Err("Bad FRED payload (" + seriesId + ")")
    else
      var clean := Fred.Clean(fetched.value.value);
      if clean == [] then Err("No observations (" + seriesId + ")")
      else
        var p := Fred.NewestFirstPair(clean);
        Ok(Series(p.price, p.pct))
  }

  /** The dashboard's gold key and the gold function read the same London PM fix
      in opposite sort orders, and agree on the price and the change. */
  lemma GoldReadersAgree(obs: seq<RawValue>)
    requires Fred.Clean(obs) != []
    ensures var mine := FredPair(true, Gold.PmSeries, Ok(Some(obs)));
            var theirs := Gold.FredLatestPair(true, Gold.PmSeries, Ok(Some(Fred.Reverse(obs))));
            && mine.Ok? && theirs.Ok?
            && theirs.value.price == Fin(mine.value.level)
            && theirs.value.pct == (if mine.value.change.Some? then Some(Fin(mine.value.change.value)) else None)
  {
    Fred.OrderingsAgree(obs);
  }

  /** One of the site's own functions: its JSON body, or the error of a request
      that failed (a non-2xx status included). */
  function Relay(fetched: Outcome<string>): (e: Entry)
    ensures e.Failed? <==> fetched.Err?
    ensures fetched.Ok? ==> e == Relayed(fetched.value)
    ensures fetched.Err? ==> e.error == fetched.msg
  {
    match fetched
    case Ok(body) => Relayed(body)
    case Err(m) => Failed(m)
  }

  /** The keys of the result object. */
  datatype Key = Spy | Vixy | Tsla | Lit | YieldCurve | EstimatedBuffett | Buffett | GoldKey | Dxy

  /** The name each key has in the JSON body. */
  function Name(k: Key): string {
    match k
    case Spy => "spy"
    case Vixy => "vixy"
    case Tsla => "tsla"
    case Lit => "lit"
    case YieldCurve => "yieldCurve"
    case EstimatedBuffett => "estimatedBuffett"
    case Buffett => "buffett"
    case GoldKey => "gold"
    case Dxy => "dxy"
  }

  /** The keys in the order they are filled. */
  const Keys: seq<Key> := [Spy, Vixy, Tsla, Lit, YieldCurve, EstimatedBuffett, Buffett, GoldKey, Dxy]

  const DxySeries: string := "DTWEXBGS"

  /** Everything the handler depends on. */
  datatype Inputs = Inputs(fmpKey: bool, fredKey: bool,
                           spy: Quotes, vixy: Quotes, tsla: Quotes, lit: Quotes,
                           yieldCurve: Outcome<string>, estimatedBuffett: Outcome<string>, buffett: Outcome<string>,
                           gold: Outcome<Option<seq<RawValue>>>, dxy: Outcome<Option<seq<RawValue>>>)

  /** A caught error becomes the key's `{ error }` entry. */
  function Caught(r: Outcome<Entry>): (e: Entry)
    ensures r.Ok? ==> e == r.value
    ensures r.Err? ==> e == Failed(r.msg)
  {
    match r
    case Ok(v) => v
    case Err(m) => Failed(m)
  }

  /** The response: its status, and the result object as its keys in insertion
      order with the entry under each. */
  datatype Response = Response(status: int, keys: seq<Key>, results: map<Key, Entry>)

  /** `handler`: fill the nine keys in order; each key holds what its own
      upstream gave, whatever happened to the others, and the status is 200. */
  method FetchAll(inp: Inputs) returns (resp: Response)
    ensures resp.status == 200
    ensures resp.keys == Keys
    ensures forall k: Key :: k in resp.results
    ensures resp.results[Spy] == QuoteEntry(inp.fmpKey, inp.spy)
    ensures resp.results[Vixy] == QuoteEntry(inp.fmpKey, inp.vixy)
    ensures resp.results[Tsla] == QuoteEntry(inp.fmpKey, inp.tsla)
    ensures resp.results[Lit] == QuoteEntry(inp.fmpKey, inp.lit)
    ensures resp.results[YieldCurve] == Relay(inp.yieldCurve)
    ensures resp.results[EstimatedBuffett] == Relay(inp.estimatedBuffett)
    ensures resp.results[Buffett] == Relay(inp.buffett)
    ensures resp.results[GoldKey] == Caught(FredPair(inp.fredKey, Gold.PmSeries, inp.gold))
    ensures resp.results[Dxy] == Caught(FredPair(inp.fredKey, DxySeries, inp.dxy))
  {
    var results: map<Key, Entry> := map[];
    var keys: seq<Key> := [];
    results, keys := results[Spy := QuoteEntry(inp.fmpKey, inp.spy)], keys + [Spy];
    results, keys := results[Vixy := QuoteEntry(inp.fmpKey, inp.vixy)], keys + [Vixy];
    results, keys := results[Tsla := QuoteEntry(inp.fmpKey, inp.tsla)], keys + [Tsla];
    results, keys := results[Lit := QuoteEntry(inp.fmpKey, inp.lit)], keys + [Lit];
    results, keys := results[YieldCurve := Relay(inp.yieldCurve)], keys + [YieldCurve];
    results, keys := results[EstimatedBuffett := Relay(inp.estimatedBuffett)], keys + [EstimatedBuffett];
    results, keys := results[Buffett := Relay(inp.buffett)], keys + [Buffett];
    results, keys := results[GoldKey := Caught(FredPair(inp.fredKey, Gold.PmSeries, inp.gold))], keys + [GoldKey];
    results, keys := results[Dxy := Caught(FredPair(inp.fredKey, DxySeries, inp.dxy))], keys + [Dxy];
    forall k: Key ensures k in results {
      match k
      case Spy => case Vixy => case Tsla => case Lit => case YieldCurve =>
      case EstimatedBuffett => case Buffett => case GoldKey => case Dxy =>
    }
    resp := Response(200, keys, results);
  }
}

=== FILE: fred.dfy ===
/** Reading FRED observation lists: the "." missing-value marker, the other
    values that are not numbers, and the choice of the latest value in either
    sort order. */
module Fred {
  import opened Common

  /** The numeric observations in their given order ("." , null, undefined and
      unparseable text dropped). */
  function Clean(obs: seq<RawValue>): (r: seq<real>)
    ensures |r| <= |obs|
    ensures r == [] <==> forall i :: 0 <= i < |obs| ==> !IsNumeric(obs[i])
  {
    if obs == [] then []
    else (if IsNumeric(obs[0]) then [obs[0].parsed.value] else []) + Clean(obs[1..])
  }

  /** The first numeric observation in the given order. */
  function FirstValid(obs: seq<RawValue>): (r: Option<real>)
    ensures r.None? <==> forall i :: 0 <= i < |obs| ==> !IsNumeric(obs[i])
    ensures r.Some? ==> exists i :: 0 <= i < |obs| && obs[i] == Text(r)
                                    && forall j :: 0 <= j < i ==> !IsNumeric(obs[j])
  {
    if obs == [] then None
    else if IsNumeric(obs[0]) then obs[0].parsed
    else
      var r := FirstValid(obs[1..]);
      assert r.Some? ==> exists i :: 0 <= i < |obs| && obs[i] == Text(r)
                                    && forall j :: 0 <= j < i ==> !IsNumeric(obs[j]) by {
        if r.Some? {
          var i :| 0 <= i < |obs[1..]| && obs[1..][i] == Text(r)
                   && forall j :: 0 <= j < i ==> !IsNumeric(obs[1..][j]);
          assert obs[i + 1] == Text(r);
          assert forall j :: 1 <= j < i + 1 ==> obs[j] == obs[1..][j - 1];
        }
      }
      r
  }

  /** The value a newest-first FRED reader reports: an error for a payload that
      is not a non-empty observation list, otherwise the first numeric
      observation, or an error when there is none. */
  function Latest(seriesId: string, fetched: Outcome<Option<seq<RawValue>>>): (r: Outcome<real>)
    ensures fetched.Err? ==> r == Err(fetched.msg)
    ensures fetched.Ok? && (fetched.value.None? || fetched.value.value == []) ==>
              r == Err("No data for " + seriesId)
    ensures r.Ok? <==> fetched.Ok? && fetched.value.Some? && Clean(fetched.value.value) != []
    ensures r.Ok? ==> r.value == Clean(fetched.value.value)[0]
    ensures fetched.Ok? && fetched.value.Some? && fetched.value.value != [] && Clean(fetched.value.value) == [] ==>
              r == Err("No valid observation for " + seriesId)
  {
    if fetched.Err? then Err(fetched.msg)
    else if fetched.value.None? || fetched.value.value == [] then Err("No data for " + seriesId)
    else
      var obs := fetched.value.value;
      FirstValidIsFirstClean(obs);
      match FirstValid(obs)
      case Some(v) => Ok(v)
      case None => Err("No valid observation for " + seriesId)
  }

  /** `fetchLatestValidFred` (and its copies `getLatestValid`, `fetchLatest`):
      walk the newest-first observations, skip ".", null and undefined, and
      return the first value that parses. */
  method LatestValid(seriesId: string, fetched: Outcome<Option<seq<RawValue>>>) returns (r: Outcome<real>)
    ensures r == Latest(seriesId, fetched)
  {
    if fetched.Err? {
      return Err(fetched.msg);
    }
    if fetched.value.None? || fetched.value.value == [] {
      return Err("No data for " + seriesId);
    }
    var obs := fetched.value.value;
    var i := 0;
    while i < |obs|
      invariant 0 <= i <= |obs|
      invariant FirstValid(obs) == FirstValid(obs[i..])
    {
      var v := obs[i];
      assert obs[i..][1..] == obs[i + 1..];
      if v == Dot || v == Null || v == Undefined {
        i := i + 1;
        continue;
      }
      var parsed := ParseFloat(v);
      if parsed.Some? {
        return Ok(parsed.value);
      }
      i := i + 1;
    }
    return Err("No valid observation for " + seriesId);
  }

  /** The first-valid scan picks the value a filter-then-take-first reader picks. */
  lemma {:induction false} FirstValidIsFirstClean(obs: seq<RawValue>)
    ensures FirstValid(obs) == if Clean(obs) == [] then None else Some(Clean(obs)[0])
  {
    if obs != [] && !IsNumeric(obs[0]) {
      FirstValidIsFirstClean(obs[1..]);
    }
  }

  lemma {:induction false} CleanAppend(a: seq<RawValue>, b: seq<RawValue>)
    ensures Clean(a + b) == Clean(a) + Clean(b)
  {
    if a == [] {
      assert a + b == b;
    } else {
      var head := if IsNumeric(a[0]) then [a[0].parsed.value] else [];
      assert (a + b)[0] == a[0];
      assert (a + b)[1..] == a[1..] + b;
      CleanAppend(a[1..], b);
      assert Clean(a + b) == head + Clean(a[1..] + b);
      assert Clean(a) == head + Clean(a[1..]);
    }
  }

  function Reverse<T>(s: seq<T>): (r: seq<T>)
    ensures |r| == |s|
    ensures forall i :: 0 <= i < |s| ==> r[i] == s[|s| - 1 - i]
  {
    if s == [] then [] else Reverse(s[1..]) + [s[0]]
  }

  /** Filtering commutes with reversing the sort order. */
  lemma {:induction false} CleanReverse(obs: seq<RawValue>)
    ensures Clean(Reverse(obs)) == Reverse(Clean(obs))
  {
    if obs != [] {
      CleanReverse(obs[1..]);
      CleanAppend(Reverse(obs[1..]), [obs[0]]);
      assert Clean([obs[0]]) == if IsNumeric(obs[0]) then [obs[0].parsed.value] else [];
      var head := if IsNumeric(obs[0]) then [obs[0].parsed.value] else [];
      assert Clean(obs) == head + Clean(obs[1..]);
      ReverseAppend(head, Clean(obs[1..]));
      assert Reverse(head) == head;
    }
  }

  lemma {:induction false} ReverseAppend<T>(a: seq<T>, b: seq<T>)
    ensures Reverse(a + b) == Reverse(b) + Reverse(a)
  {
  }

  /** A latest value and the percentage change from the prior one. */
  datatype Pair = Pair(price: real, pct: Option<real>)

  /** `pct` is null when there is no prior value or the prior value is 0. */
  function MakePair(latest: real, prior: Option<real>): (p: Pair)
    ensures p.price == latest
    ensures p.pct.Some? <==> prior.Some? && prior.value != 0.0
    ensures p.pct.Some? ==> p.pct.value * prior.value == (latest - prior.value) * 100.0
  {
    if prior.Some? && prior.value != 0.0 then Pair(latest, Some(PctChange(latest, prior.value)))
    else Pair(latest, None)
  }

  /** Newest-first input: latest is element 0, prior element 1. */
  function NewestFirstPair(clean: seq<real>): (p: Pair)
    requires clean != []
    ensures p.price == clean[0]
    ensures p.pct.Some? <==> |clean| > 1 && clean[1] != 0.0
  {
    MakePair(clean[0], if |clean| > 1 then Some(clean[1]) else None)
  }

  /** Chronological input: latest is the last element, prior the one before it. */
  function ChronologicalPair(clean: seq<real>): (p: Pair)
    requires clean != []
    ensures p.price == clean[|clean| - 1]
    ensures p.pct.Some? <==> |clean| > 1 && clean[|clean| - 2] != 0.0
  {
    MakePair(clean[|clean| - 1], if |clean| > 1 then Some(clean[|clean| - 2]) else None)
  }

  /** Reading a series newest-first and reading it oldest-first pick the same
      latest value and the same change. */
  lemma {:induction false} OrderingsAgree(obs: seq<RawValue>)
    requires Clean(obs) != []
    ensures Clean(Reverse(obs)) != []
    ensures NewestFirstPair(Clean(obs)) == ChronologicalPair(Clean(Reverse(obs)))
  {
    CleanReverse(obs);
  }
}

=== FILE: gold.dfy ===
/** The gold handler: London PM fix, London AM fix (both from FRED), TwelveData
    spot XAU/USD, then FMP gold futures; the first source that answers wins and
    every failure is reported, still with status 200, when none does. */
module Gold {
  import opened Common
  import Fallback
  import Fred

  /** What a source returns: price, percentage change (null when unknown) and a label. */
  datatype GoldQuote = GoldQuote(price: JsNum, pct: Option<JsNum>, source: string)

  const PmSeries: string := "GOLDPMGBD228NLBM"
  const AmSeries: string := "GOLDAMGBD228NLBM"

  /** `fredLatestPair`: a chronological FRED series, filtered to its numeric
      values; the latest is the last of them, the prior the one before it.
      `fetched` holds the `observations` field, None when it is not an array. */
  function FredLatestPair(fredKey: bool, seriesId: string, fetched: Outcome<Option<seq<RawValue>>>): (r: Outcome<GoldQuote>)
    ensures !fredKey ==> r == Err("FRED_KEY missing")
    ensures fredKey && fetched.Err? ==> r == Err(fetched.msg)
    ensures fredKey && fetched.Ok? && fetched.value.None? ==> r == Err("No observations for " + seriesId)
    ensures fredKey && fetched.Ok? && fetched.value.Some? && Fred.Clean(fetched.value.value) == [] ==>
              r == Err("No observations for " + seriesId)
    ensures r.Ok? <==> fredKey && fetched.Ok? && fetched.value.Some? && Fred.Clean(fetched.value.value) != []
    ensures r.Ok? ==> var c := Fred.Clean(fetched.value.value);
                      && r.value.price == Fin(c[|c| - 1])
                      && r.value.source == "FRED " + seriesId
                      && (r.value.pct.Some? <==> |c| > 1 && c[|c| - 2] != 0.0)
                      && (r.value.pct.Some? ==> r.value.pct == Some(Fin(PctChange(c[|c| - 1], c[|c| - 2]))))
  {
    if !fredKey then Err("FRED_KEY missing")
    else if fetched.Err? then Err(fetched.msg)
    else
      var obs := if fetched.value.Some? then fetched.value.value else [];
      var clean := Fred.Clean(obs);
      if clean == [] then Err("No observations for " + seriesId)
      else
        var p := Fred.ChronologicalPair(clean);
        Ok(GoldQuote(Fin(p.price), if p.pct.Some? then Some(Fin(p.pct.value)) else None, "FRED " + seriesId))
  }

  /** `tdGold`: a TwelveData payload flagged as an error fails with its message
      (or a fixed text when the message is empty); otherwise the close and the
      percent change are converted as they are, NaN included. */
  function TdGold(twelveKey: bool, fetched: Outcome<TdPayload>): (r: Outcome<GoldQuote>)
    ensures !twelveKey ==> r == Err("TWELVE_KEY missing")
    ensures twelveKey && fetched.Err? ==> r == Err(fetched.msg)
    ensures r.Ok? <==> twelveKey && fetched.Ok? && !fetched.value.statusError
    ensures twelveKey && fetched.Ok? && fetched.value.statusError ==>
              r == Err(if fetched.value.message == "" then "TwelveData error" else fetched.value.message)
    ensures r.Ok? ==> r.value == GoldQuote(NumberOf(fetched.value.close), Some(NumberOf(fetched.value.percentChange)),
                                           "TwelveData XAU/USD")
  {
    if !twelveKey then Err("TWELVE_KEY missing")
    else if fetched.Err? then Err(fetched.msg)
    else if fetched.value.statusError then
      Err(if fetched.value.message == "" then "TwelveData error" else fetched.value.message)
    else Ok(GoldQuote(NumberOf(fetched.value.close), Some(NumberOf(fetched.value.percentChange)), "TwelveData XAU/USD"))
  }

  /** `fmpGold`: the first row of the quote array for GC=F; a payload that is
      not an array or has no first row is rejected. */
  function FmpGold(fmpKey: bool, fetched: Outcome<Option<FmpRow>>): (r: Outcome<GoldQuote>)
    ensures !fmpKey ==> r == Err("FMP_KEY missing")
    ensures fmpKey && fetched.Err? ==> r == Err(fetched.msg)
    ensures r.Ok? <==> fmpKey && fetched.Ok? && fetched.value.Some?
    ensures fmpKey && fetched.Ok? && fetched.value.None? ==> r == Err("Bad FMP data")
    ensures r.Ok? ==> var row := fetched.value.value;
                      r.value == GoldQuote(NumberOf(row.price), Some(NumberOf(row.changesPercentage)), "FMP GC=F")
  {
    if !fmpKey then Err("FMP_KEY missing")
    else if fetched.Err? then Err(fetched.msg)
    else if fetched.value.None? then Err("Bad FMP data")
    else
      var row := fetched.value.value;
      Ok(GoldQuote(NumberOf(row.price), Some(NumberOf(row.changesPercentage)), "FMP GC=F"))
  }

  /** Everything the four attempts depend on. */
  datatype Inputs = Inputs(fredKey: bool, twelveKey: bool, fmpKey: bool,
                           pm: Outcome<Option<seq<RawValue>>>,
                           am: Outcome<Option<seq<RawValue>>>,
                           td: Outcome<TdPayload>,
                           fmp: Outcome<Option<FmpRow>>)

  /** The attempts in the order the handler makes them. */
  function Sources(inp: Inputs): (s: seq<Outcome<GoldQuote>>)
    ensures |s| == 4
    ensures s[0].Ok? ==> s[0].value.source == "FRED " + PmSeries
  {
    [FredLatestPair(inp.fredKey, PmSeries, inp.pm), FredLatestPair(inp.fredKey, AmSeries, inp.am),
     TdGold(inp.twelveKey, inp.td), FmpGold(inp.fmpKey, inp.fmp)]
  }

  /** `e.message || String(e)`: an error with an empty message prints as "Error". */
  function ErrorText(msg: string): (t: string)
    ensures t != []
    ensures msg != [] ==> t == msg
  {
    if msg == "" then "Error" else msg
  }

  /** The trail of the handler: the text of every failure, in attempt order. */
  function Texts(msgs: seq<string>): (t: seq<string>)
    ensures |t| == |msgs|
    ensures forall i :: 0 <= i < |msgs| ==> t[i] == ErrorText(msgs[i])
  {
    seq(|msgs|, i requires 0 <= i < |msgs| => ErrorText(msgs[i]))
  }

  datatype Body =
    | Quoted(price: JsNum, pct: Option<JsNum>, source: string)
    | Failure(error: string, tried: seq<string>)

  datatype Response = Response(status: int, body: Body)

  /** `exports.handler`: the first attempt that succeeds answers; when all four
      fail the answer is an error with every failure's text, with status 200. */
  method Handle(inp: Inputs) returns (resp: Response, attempts: nat)
    ensures resp.status == 200
    ensures attempts == Fallback.Attempts(Sources(inp))
    ensures resp.body.Quoted? <==> exists i :: 0 <= i < 4 && Sources(inp)[i].Ok?
    ensures resp.body.Quoted? ==>
              var q := Fallback.Winner(Sources(inp)).value;
              resp.body == Quoted(q.price, q.pct, q.source)
    ensures resp.body.Failure? ==>
              && resp.body.error == "All gold sources failed"
              && attempts == 4
              && resp.body.tried == Texts(Fallback.Trail(Sources(inp)))
              && forall i :: 0 <= i < 4 ==> resp.body.tried[i] == ErrorText(Sources(inp)[i].msg)
  {
    var won, msgs, n := Fallback.TryInOrder(Sources(inp));
    attempts := n;
    match won
    case Some(q) =>
      resp := Response(200, Quoted(q.price, q.pct, q.source));
    case None =>
      resp := Response(200, Failure("All gold sources failed", Texts(msgs)));
  }

  /** A usable London PM fix answers the request: no other source is consulted. */
  lemma PmFixDecides(inp: Inputs)
    requires inp.fredKey && inp.pm.Ok? && inp.pm.value.Some? && Fred.Clean(inp.pm.value.value) != []
    ensures Fallback.Attempts(Sources(inp)) == 1
    ensures Fallback.Winner(Sources(inp)).Some?
    ensures Fallback.Winner(Sources(inp)).value.source == "FRED GOLDPMGBD228NLBM"
  {
    Fallback.TrailPrefix(Sources(inp), 0);
  }

  /** Without a FRED key both fixes fail with the same message before anything is
      fetched, and the answer then depends on TwelveData and FMP alone. */
  lemma NoFredKeySkipsFixes(inp: Inputs)
    requires !inp.fredKey
    ensures Sources(inp)[0] == Err("FRED_KEY missing") && Sources(inp)[1] == Err("FRED_KEY missing")
    ensures Fallback.Winner(Sources(inp)) == Fallback.Winner(Sources(inp)[2..])
  {
    var s := Sources(inp);
    assert s[2..] == [s[2], s[3]];
  }
}

=== FILE: vix.dfy ===
/** The volatility-index handler: FRED first, then FMP, the CBOE CSV and the
    Stooq CSV, with a last-known-good record served for six hours when every
    source fails. */
module Vix {
  import opened Common
  import Fallback
  import Fred

  /** What a source returns: price, percentage change (null when unknown) and a label. */
  datatype Quote = Quote(price: JsNum, changePercent: Option<JsNum>, source: string)

  /** The Stooq CSV after trimming: empty, the literal "NO DATA", or its non-empty
      lines, each given as what its fifth column (the close) parses to. */
  datatype StooqText = Blank | NoData | Rows(closes: seq<Option<real>>)

  /** `((latest - prev) / prev) * 100` on JavaScript numbers. */
  function Change(latest: JsNum, prev: JsNum): (c: JsNum)
    ensures latest.Fin? && prev.Fin? && prev.r != 0.0 ==> c == Fin(PctChange(latest.r, prev.r))
    ensures latest.NaN? || prev.NaN? ==> c.NaN?
  {
    Mul(Div(Sub(latest, prev), prev), Fin(100.0))
  }

  // ---------- FRED ----------

  /** `observations.filter(o => o.value !== '.').map(o => Number(o.value))`. */
  function NotDot(obs: seq<RawValue>): (vals: seq<JsNum>)
    ensures |vals| == |obs| - multiset(obs)[Dot]
    ensures vals == [] <==> forall i :: 0 <= i < |obs| ==> obs[i] == Dot
  {
    if obs == [] then []
    else
      assert obs == [obs[0]] + obs[1..];
      (if obs[0] == Dot then [] else [NumberOf(obs[0])]) + NotDot(obs[1..])
  }

  /** The first value kept is the first non-"." observation, as `Number` reads
      it: a null there gives 0, never a later numeric value. */
  lemma {:induction false} NotDotFirst(obs: seq<RawValue>, i: nat)
    requires i < |obs| && obs[i] != Dot
    requires forall j :: 0 <= j < i ==> obs[j] == Dot
    ensures NotDot(obs) != [] && NotDot(obs)[0] == NumberOf(obs[i])
  {
    if i > 0 {
      NotDotFirst(obs[1..], i - 1);
    }
  }

  /** `fromFRED`: newest-first VIXCLS; the latest is the first non-"." value. */
  function FromFred(fredKey: bool, fetched: Outcome<Option<seq<RawValue>>>): (r: Outcome<Quote>)
    ensures !fredKey ==> r == Err("FRED_KEY missing")
    ensures fredKey && fetched.Err? ==> r == Err(fetched.msg)
    ensures fredKey && fetched.Ok? && fetched.value.None? ==> r == Err("FRED: bad payload")
    ensures fredKey && fetched.Ok? && fetched.value.Some? && NotDot(fetched.value.value) == [] ==>
              r == Err("FRED: no numeric values")
    ensures r.Ok? ==> fetched.Ok? && fetched.value.Some?
                      && exists i :: 0 <= i < |fetched.value.value| && fetched.value.value[i] != Dot
    ensures r.Ok? ==> var vals := NotDot(fetched.value.value);
                      && r.value.price == vals[0]
                      && (r.value.changePercent.Some? <==> |vals| > 1 && vals[1] != Fin(0.0))
                      && (r.value.changePercent.Some? ==> r.value.changePercent.value == Change(vals[0], vals[1]))
                      && r.value.source == "FRED VIXCLS (daily close)"
  {
    if !fredKey then Err("FRED_KEY missing")
    else if fetched.Err? then Err(fetched.msg)
    else if fetched.value.None? then Err("FRED: bad payload")
    else
      var vals := NotDot(fetched.value.value);
      if vals == [] then Err("FRED: no numeric values")
      else
        var cp := if |vals| > 1 && vals[1] != Fin(0.0) then Some(Change(vals[0], vals[1])) else None;
        Ok(Quote(vals[0], cp, "FRED VIXCLS (daily close)"))
  }

  /** Finite readings as JavaScript numbers. */
  function AsNumbers(xs: seq<real>): (r: seq<JsNum>)
    ensures |r| == |xs|
    ensures forall i :: 0 <= i < |xs| ==> r[i] == Fin(xs[i])
  {
    if xs == [] then [] else [Fin(xs[0])] + AsNumbers(xs[1..])
  }

  /** A null newest observation is read as 0 by the FRED source, even when a
      numeric value follows it. */
  lemma FredNullReadsAsZero(next: real)
    ensures var r := FromFred(true, Ok(Some([Null, Text(Some(next))])));
            r.Ok? && r.value.price == Fin(0.0)
  {
    NotDotFirst([Null, Text(Some(next))], 0);
  }

  /** On a payload whose values are all numbers or ".", the FRED source reads
      the same values, in the same order, as the other handlers' filtered readers. */
  lemma {:induction false} FredAgreesWithClean(obs: seq<RawValue>)
    requires forall i :: 0 <= i < |obs| ==> obs[i] == Dot || IsNumeric(obs[i])
    ensures NotDot(obs) == AsNumbers(Fred.Clean(obs))
  {
    if obs != [] {
      FredAgreesWithClean(obs[1..]);
      var rest := Fred.Clean(obs[1..]);
      if IsNumeric(obs[0]) {
        var c := [obs[0].parsed.value] + rest;
        assert Fred.Clean(obs) == c;
        assert c[1..] == rest;
      } else {
        assert Fred.Clean(obs) == rest;
      }
    }
  }

  /** Hence on such a payload the price is the newest numeric value and the
      change is the percentage change from the next one. */
  lemma {:induction false} FredQuoteOnWellFormed(obs: seq<RawValue>)
    requires forall i :: 0 <= i < |obs| ==> obs[i] == Dot || IsNumeric(obs[i])
    requires Fred.Clean(obs) != []
    ensures FromFred(true, Ok(Some(obs))).Ok?
    ensures FromFred(true, Ok(Some(obs))).value.price == Fin(Fred.NewestFirstPair(Fred.Clean(obs)).price)
    ensures FromFred(true, Ok(Some(obs))).value.changePercent ==
              match Fred.NewestFirstPair(Fred.Clean(obs)).pct
              case Some(x) => Some(Fin(x))
              case None => None
  {
    FredAgreesWithClean(obs);
    var c := Fred.Clean(obs);
    var vals := NotDot(obs);
    assert vals[0] == Fin(c[0]);
    if |c| > 1 && c[1] != 0.0 {
      assert vals[1] == Fin(c[1]);
      assert Change(vals[0], vals[1]) == Fin(PctChange(c[0], c[1]));
    }
  }

  // ---------- FMP ----------

  /** `fromFMP`: the first quote row; a NaN price fails, a NaN or null change is null. */
  function FromFmp(fmpKey: bool, fetched: Outcome<Option<FmpRow>>): (r: Outcome<Quote>)
    ensures !fmpKey ==> r == Err("FMP_KEY missing")
    ensures fmpKey && fetched.Err? ==> r == Err(fetched.msg)
    ensures fmpKey && fetched.Ok? && fetched.value.None? ==> r == Err("FMP: no rows")
    ensures fmpKey && fetched.Ok? && fetched.value.Some? && NumberOf(fetched.value.value.price).NaN? ==>
              r == Err("FMP: bad price")
    ensures r.Ok? <==> fmpKey && fetched.Ok? && fetched.value.Some? && !NumberOf(fetched.value.value.price).NaN?
    ensures r.Ok? ==> && r.value.price == NumberOf(fetched.value.value.price)
                      && (r.value.changePercent.Some? <==> IsNumeric(fetched.value.value.changesPercentage))
                      && (r.value.changePercent.Some? ==>
                            r.value.changePercent.value == Fin(fetched.value.value.changesPercentage.parsed.value))
                      && r.value.source == "FMP ^VIX (intraday)"
  {
    if !fmpKey then Err("FMP_KEY missing")
    else if fetched.Err? then Err(fetched.msg)
    else if fetched.value.None? then Err("FMP: no rows")
    else
      var row := fetched.value.value;
      var price := NumberOf(row.price);
      if price.NaN? then Err("FMP: bad price")
      else
        var cp := if row.changesPercentage.Null? || row.changesPercentage.Undefined? then None
                  else if NumberOf(row.changesPercentage).NaN? then None
                  else Some(NumberOf(row.changesPercentage));
        Ok(Quote(price, cp, "FMP ^VIX (intraday)"))
  }

  // ---------- CBOE ----------

  /** Index of the last line in [1, hi) whose close column parses; line 0 is the header. */
  function LastCloseIndex(lines: seq<Option<real>>, hi: nat): (r: Option<nat>)
    requires hi <= |lines|
    ensures r.Some? ==> 1 <= r.value < hi && lines[r.value].Some?
    ensures r.Some? ==> forall j :: r.value < j < hi ==> lines[j].None?
    ensures r.None? ==> forall j :: 1 <= j < hi ==> lines[j].None?
    decreases hi
  {
    if hi <= 1 then None
    else if lines[hi - 1].Some? then Some(hi - 1)
    else LastCloseIndex(lines, hi - 1)
  }

  /** What `fromCBOE` computes, given its non-empty CSV lines as what each line's
      last column parses to: the latest numeric close and the one above it. */
  function CboeQuote(fetched: Outcome<seq<Option<real>>>): (r: Outcome<Quote>)
    ensures fetched.Err? ==> r == Err(fetched.msg)
    ensures fetched.Ok? && |fetched.value| < 2 ==> r == Err("CBOE: no data rows")
    ensures fetched.Ok? && |fetched.value| >= 2 && LastCloseIndex(fetched.value, |fetched.value|).None? ==>
              r == Err("CBOE: no usable close")
    ensures fetched.Ok? && |fetched.value| >= 2 ==>
              (r.Ok? <==> exists k :: 1 <= k < |fetched.value| && fetched.value[k].Some?)
    ensures r.Ok? ==> fetched.Ok? && var lines := fetched.value;
                      exists k :: && 1 <= k < |lines| && lines[k].Some? && r.value.price == Fin(lines[k].value)
                                  && forall j :: k < j < |lines| ==> lines[j].None?
    ensures r.Ok? ==> && fetched.Ok? && LastCloseIndex(fetched.value, |fetched.value|).Some?
                      && var lines := fetched.value;
                         var k := LastCloseIndex(lines, |lines|).value;
                         var before := LastCloseIndex(lines, k);
                         && r.value.price == Fin(lines[k].value)
                         && (r.value.changePercent.Some? <==> before.Some? && lines[before.value].value != 0.0)
                         && (r.value.changePercent.Some? ==>
                               r.value.changePercent.value == Fin(PctChange(lines[k].value, lines[before.value].value)))
                         && r.value.source == "CBOE CSV (daily close)"
  {
    if fetched.Err? then Err(fetched.msg)
    else
      var lines := fetched.value;
      if |lines| < 2 then Err("CBOE: no data rows")
      else match LastCloseIndex(lines, |lines|)
        case None => Err("CBOE: no usable close")
        case Some(k) =>
          assert 1 <= k < |lines| && lines[k].Some?;
          var latest := lines[k].value;
          var prev := match LastCloseIndex(lines, k) case Some(j) => lines[j] case None => None;
          var cp := if prev.Some? && prev.value != 0.0 then Some(Fin(PctChange(latest, prev.value))) else None;
          Ok(Quote(Fin(latest), cp, "CBOE CSV (daily close)"))
  }

  /** Scanning below line `hi` never looks at line 0. */
  lemma {:induction false} LastCloseIgnoresHeader(lines: seq<Option<real>>, header: Option<real>, hi: nat)
    requires 0 < |lines| && hi <= |lines|
    ensures LastCloseIndex(lines[0 := header], hi) == LastCloseIndex(lines, hi)
    decreases hi
  {
    if hi > 1 {
      assert lines[0 := header][hi - 1] == lines[hi - 1];
      LastCloseIgnoresHeader(lines, header, hi - 1);
    }
  }

  /** The header line of the CSV never affects the CBOE quote, even when its
      last column happens to parse as a number. */
  lemma CboeIgnoresHeader(lines: seq<Option<real>>, header: Option<real>)
    requires 0 < |lines|
    ensures CboeQuote(Ok(lines[0 := header])) == CboeQuote(Ok(lines))
  {
    var other := lines[0 := header];
    LastCloseIgnoresHeader(lines, header, |lines|);
    match LastCloseIndex(lines, |lines|)
    case None =>
    case Some(k) =>
      LastCloseIgnoresHeader(lines, header, k);
      assert other[k] == lines[k];
      match LastCloseIndex(lines, k)
      case None =>
      case Some(j) => assert other[j] == lines[j];
  }

  /** `fromCBOE`: walk backwards from the last line for the latest numeric
      close, then on for the previous one, never parsing the header line. */
  method FromCboe(fetched: Outcome<seq<Option<real>>>) returns (r: Outcome<Quote>)
    ensures r == CboeQuote(fetched)
  {
    if fetched.Err? {
      return Err(fetched.msg);
    }
    var lines := fetched.value;
    if |lines| < 2 {
      return Err("CBOE: no data rows");
    }
    var latest: Option<real> := None;
    var prev: Option<real> := None;
    var i := |lines| - 1;
    while i > 0 && latest.None?
      invariant 0 <= i < |lines|
      invariant latest.None? ==> LastCloseIndex(lines, |lines|) == LastCloseIndex(lines, i + 1)
      invariant latest.Some? ==> LastCloseIndex(lines, |lines|) == Some(i + 1) && latest == lines[i + 1]
    {
      latest := lines[i];
      i := i - 1;
    }
    ghost var k := i + 1;
    while i > 0 && prev.None?
      invariant 0 <= i < k <= |lines|
      invariant prev.None? ==> LastCloseIndex(lines, k) == LastCloseIndex(lines, i + 1)
      invariant prev.Some? ==> LastCloseIndex(lines, k) == Some(i + 1) && prev == lines[i + 1]
    {
      prev := lines[i];
      i := i - 1;
    }
    if latest.None? {
      return Err("CBOE: no usable close");
    }
    var cp := if prev.Some? && prev.value != 0.0 then Some(Fin(PctChange(latest.value, prev.value))) else None;
    r := Ok(Quote(Fin(latest.value), cp, "CBOE CSV (daily close)"));
  }

  // ---------- Stooq ----------

  /** `fromStooq`: the close of the last row; the row above it is consulted
      only when there are more than two rows (the first is the header). */
  function FromStooq(fetched: Outcome<StooqText>): (r: Outcome<Quote>)
    ensures fetched.Ok? && !fetched.value.Rows? ==> r == Err("Stooq: no usable data")
    ensures fetched.Err? ==> r == Err(fetched.msg)
    ensures fetched.Ok? && fetched.value.Rows? && |fetched.value.closes| < 2 ==> r == Err("Stooq: no data rows")
    ensures fetched.Ok? && fetched.value.Rows? && |fetched.value.closes| >= 2 ==>
              var c := fetched.value.closes;
              && (r.Ok? <==> c[|c| - 1].Some?)
              && (c[|c| - 1].None? ==> r == Err("Stooq: bad close"))
    ensures r.Ok? ==> fetched.Ok? && fetched.value.Rows? && |fetched.value.closes| >= 2
    ensures r.Ok? ==> var c := fetched.value.closes;
                      && c[|c| - 1].Some? && r.value.price == Fin(c[|c| - 1].value)
                      && (r.value.changePercent.Some? <==> |c| > 2 && c[|c| - 2].Some? && c[|c| - 2].value != 0.0)
                      && (r.value.changePercent.Some? ==>
                            r.value.changePercent.value == Fin(PctChange(c[|c| - 1].value, c[|c| - 2].value)))
                      && r.value.source == "Stooq CSV ^VIX (daily close)"
  {
    if fetched.Err? then Err(fetched.msg)
    else if !fetched.value.Rows? then Err("Stooq: no usable data")
    else
      var c := fetched.value.closes;
      if |c| < 2 then Err("Stooq: no data rows")
      else if c[|c| - 1].None? then Err("Stooq: bad close")
      else
        var price := c[|c| - 1].value;
        var prev := if |c| > 2 then c[|c| - 2] else None;
        var cp := if prev.Some? && prev.value != 0.0 then Some(Fin(PctChange(price, prev.value))) else None;
        Ok(Quote(Fin(price), cp, "Stooq CSV ^VIX (daily close)"))
  }

  // ---------- Handler ----------

  /** Everything the handler's four sources depend on. */
  datatype Inputs = Inputs(fredKey: bool, fmpKey: bool,
                           fred: Outcome<Option<seq<RawValue>>>,
                           fmp: Outcome<Option<FmpRow>>,
                           cboe: Outcome<seq<Option<real>>>,
                           stooq: Outcome<StooqText>)

  const SourceNames: seq<string> := ["FRED", "FMP", "CBOE", "Stooq"]

  /** How long a last good value may be served: 6 hours, in milliseconds. */
  const MaxCacheAgeMs: int := 6 * 60 * 60 * 1000

  /** The sources, in the order the handler tries them. */
  function Sources(inp: Inputs): (s: seq<Outcome<Quote>>)
    ensures |s| == |SourceNames|
    ensures s[0].Ok? ==> s[0].value.source == "FRED VIXCLS (daily close)"
    ensures s[1].Ok? ==> s[1].value.source == "FMP ^VIX (intraday)"
    ensures s[2].Ok? ==> s[2].value.source == "CBOE CSV (daily close)"
    ensures s[3].Ok? ==> s[3].value.source == "Stooq CSV ^VIX (daily close)"
  {
    [FromFred(inp.fredKey, inp.fred), FromFmp(inp.fmpKey, inp.fmp), CboeQuote(inp.cboe), FromStooq(inp.stooq)]
  }

  /** One entry of the diagnostic trail: `{ src, ok: false, err }`. */
  datatype TriedEntry = TriedEntry(src: string, ok: bool, err: string)

  /** The trail of the failed sources, each labelled with its name. */
  function Tried(outs: seq<Outcome<Quote>>): (t: seq<TriedEntry>)
    requires |outs| <= |SourceNames|
    ensures |t| == |Fallback.Trail(outs)|
    ensures forall j :: 0 <= j < |t| ==> t[j] == TriedEntry(SourceNames[j], false, outs[j].msg)
  {
    var msgs := Fallback.Trail(outs);
    seq(|msgs|, j requires 0 <= j < |msgs| => TriedEntry(SourceNames[j], false, msgs[j]))
  }

  datatype Body =
    | Priced(price: JsNum, changePercent: Option<JsNum>, source: string)
    | Failure(error: string, tried: seq<TriedEntry>)

  datatype Response = Response(status: int, body: Body)

  /** Invoke source `i` (only the one asked for runs). */
  method Attempt(inp: Inputs, i: nat) returns (o: Outcome<Quote>)
    requires i < |SourceNames|
    ensures o == Sources(inp)[i]
  {
    if i == 0 {
      o := FromFred(inp.fredKey, inp.fred);
    } else if i == 1 {
      o := FromFmp(inp.fmpKey, inp.fmp);
    } else if i == 2 {
      o := FromCboe(inp.cboe);
    } else {
      o := FromStooq(inp.stooq);
    }
  }

  /** The module-level `cached` record and the handler that maintains it. */
  class Cache {
    var price: Option<JsNum>
    var changePercent: Option<JsNum>
    var source: string
    var timestamp: int

    constructor ()
      ensures price == None && changePercent == None && source == "" && timestamp == 0
    {
      price, changePercent, source, timestamp := None, None, "", 0;
    }

    /** The record may be served at time `now`. */
    predicate FreshAt(now: int)
      reads this
      ensures FreshAt(now) ==> price.Some? && timestamp > now - MaxCacheAgeMs
    {
      price.Some? && now - timestamp < MaxCacheAgeMs
    }

    /** `exports.handler`: try the sources in order; the first success is
        returned and replaces the whole record; after four failures serve a
        fresh record, otherwise fail with the full trail. */
    method Handle(inp: Inputs, now: int) returns (resp: Response, attempts: nat)
      modifies this
      ensures attempts == Fallback.Attempts(Sources(inp))
      ensures Fallback.Winner(Sources(inp)).Some? ==>
                var q := Fallback.Winner(Sources(inp)).value;
                && resp == Response(200, Priced(q.price, q.changePercent, q.source))
                && price == Some(q.price) && changePercent == q.changePercent
                && source == q.source && timestamp == now
                && FreshAt(now)
      ensures Fallback.Winner(Sources(inp)).None? ==> unchanged(this)
      ensures Fallback.Winner(Sources(inp)).None? && old(FreshAt(now)) ==>
                resp == Response(200, Priced(old(price).value, old(changePercent),
                                             "Cached last good VIX (" + old(source) + ")"))
      ensures Fallback.Winner(Sources(inp)).None? && !old(FreshAt(now)) ==>
                resp == Response(500, Failure("All sources failed and no fresh cache", Tried(Sources(inp))))
                && |resp.body.tried| == |SourceNames|
    {
      ghost var outs := Sources(inp);
      var tried: seq<TriedEntry> := [];
      var i := 0;
      while i < |SourceNames|
        invariant 0 <= i <= |SourceNames|
        invariant forall j :: 0 <= j < i ==> outs[j].Err?
        invariant |tried| == i
        invariant forall j :: 0 <= j < i ==> tried[j] == TriedEntry(SourceNames[j], false, outs[j].msg)
        invariant unchanged(this)
      {
        var o := Attempt(inp, i);
        if o.Ok? {
          Fallback.TrailPrefix(outs, i);
          var q := o.value;
          price, changePercent, source, timestamp := Some(q.price), q.changePercent, q.source, now;
          resp := Response(200, Priced(q.price, q.changePercent, q.source));
          attempts := i + 1;
          return;
        }
        tried := tried + [TriedEntry(SourceNames[i], false, o.msg)];
        i := i + 1;
      }
      Fallback.ExhaustedTrailIsComplete(outs);
      attempts := |SourceNames|;
      if FreshAt(now) {
        resp := Response(200, Priced(price.value, changePercent, "Cached last good VIX (" + source + ")"));
      } else {
        assert tried == Tried(outs);
        resp := Response(500, Failure("All sources failed and no fresh cache", tried));
      }
    }
  }
}

=== FILE: yield_spread.dfy ===
/** The yield-curve function: the latest ten-year and two-year Treasury yields
    from FRED, their spread, and whether the curve is inverted. */
module YieldSpread {
  import opened Common
  import Fred

  const LongSeries: string := "DGS10"
  const ShortSeries: string := "DGS2"

  datatype Body =
    | Spread(spread: real, inverted: bool, tenY: real, twoY: real)
    | Failure(error: string)

  datatype Response = Response(status: int, body: Body)

  /** The handler once both yields are known: the spread is the ten-year minus
      the two-year yield, negative exactly when the curve is inverted; a failed
      leg is a 500 carrying its error, the ten-year leg's first. */
  function Assess(tenY: Outcome<real>, twoY: Outcome<real>): (resp: Response)
    ensures tenY.Err? ==> resp == Response(500, Failure(tenY.msg))
    ensures tenY.Ok? && twoY.Err? ==> resp == Response(500, Failure(twoY.msg))
    ensures resp.status == 200 <==> tenY.Ok? && twoY.Ok?
    ensures resp.status == 200 ==>
              && resp.body.Spread?
              && resp.body.tenY == tenY.value && resp.body.twoY == twoY.value
              && resp.body.spread + twoY.value == tenY.value
              && (resp.body.inverted <==> twoY.value > tenY.value)
  {
    if tenY.Err? then Response(500, Failure(tenY.msg))
    else if twoY.Err? then Response(500, Failure(twoY.msg))
    else
      var spread := tenY.value - twoY.value;
      Response(200, Spread(spread, spread < 0.0, tenY.value, twoY.value))
  }

  /** `exports.handler`: read both series with the first-valid scan, then assess. */
  method Handle(ten: Outcome<Option<seq<RawValue>>>, two: Outcome<Option<seq<RawValue>>>) returns (resp: Response)
    ensures resp == Assess(Fred.Latest(LongSeries, ten), Fred.Latest(ShortSeries, two))
  {
    var tenY := Fred.LatestValid(LongSeries, ten);
    var twoY := Fred.LatestValid(ShortSeries, two);
    resp := Assess(tenY, twoY);
  }

  /** With both series readable, the curve is reported inverted exactly when the
      newest numeric two-year yield is above the newest numeric ten-year yield. */
  lemma InvertedIffShortAboveLong(ten: seq<RawValue>, two: seq<RawValue>)
    requires Fred.Clean(ten) != [] && Fred.Clean(two) != []
    ensures var resp := Assess(Fred.Latest(LongSeries, Ok(Some(ten))), Fred.Latest(ShortSeries, Ok(Some(two))));
            && resp.status == 200
            && (resp.body.inverted <==> Fred.Clean(two)[0] > Fred.Clean(ten)[0])
  {
  }
}
